=== FILE: README.md ===
# VisuSearch relevance-feedback engine in Dafny

This project models the retrieval core of VisuSearch, a content-based image
search service. The Laravel `ImageController` scores every catalogued image
against the descriptor set of an uploaded query image. There are four
descriptor kinds: dominant colours, colour histogram, Gabor features and Hu
moments. The controller then sorts the hits and returns the ten best. A
relevance-feedback round takes the ids the user judged relevant and irrelevant.
It re-weights the components of each kind with a clamped naive-Bayes
posterior. Later searches with the same query image use those weights. The
browser-side `BayesianFeedback` class is modelled as well. It is a separate
re-weighting scheme: it keeps two lists of judged examples and weights three
kinds by a ratio of variances.

Modules, in dependency order:

- `Wrappers`: `Option` and `Result`.
- `RealMath`: the square root as a parameter constrained by `IsSqrt`, and facts about reals.
- `Vectors`: zero-padded dot products and squared distances. PHP's two-array `array_map` pads the shorter array with null, which reads as 0.
- `Comparators`: `euclideanDistance`, `cosineSimilarity` and `compareDominantColors`.
- `Descriptors`: the descriptor sets and the weight configuration.
- `Scorer`: `computeSimilarity`.
- `BayesianWeights`: `updateBayesianWeights`.
- `Catalog`: the image table and `getFeaturesForImageIds`.
- `Ranking`: `searchImagesByFeatures`, and the sort and slice in `search`.
- `Ids`: `array_unique(array_merge(...))`.
- `Session`: the cached session and the two controller actions `search` and `relevanceFeedback`.
- `ClientFeedback`: `bayesianFeedback.js`.

Numbers are reals. The square root is a function parameter `sqrt`. `IsSqrt(sqrt)`
requires it to return the non-negative root of every non-negative real. Every
comparator, and everything that scores, takes it.

Three behaviours of the controller that the model keeps:

- `relevanceFeedback` never writes the hash. Feedback on a session with no query image leaves the hash unset.
- `array_unique` keeps the first occurrence of each id, so the merged id lists keep that order.
- Scoring a candidate can raise an error, and the request then fails. An empty colour list reaching `compareDominantColors` divides by zero. A weighted flat kind whose candidate vector is shorter than the query's reads an undefined array key, and Laravel turns that warning into an exception. `Scorer.ScoreFailure` names the error, `Ranking.CatalogFailure` finds the first image that raises one, and `Search` reports it as `Failure(ScoringFailed(...))`. The scorer's `ScoreDefined` precondition excludes both cases.

## Model

| member | source | states |
|---|---|---|
| Vectors.SqDistZeroIff | backend/Laravel/app/Http/Controllers/ImageController.php:359 | the summed squared differences of the padded vectors are 0 exactly when the vectors agree component-wise once padded with zeros |
| Vectors.CauchySchwarz | backend/Laravel/app/Http/Controllers/ImageController.php:342-344 | the square of the dot product is at most the product of the two squared norms |
| Vectors.NormSquared | backend/Laravel/app/Http/Controllers/ImageController.php:343-344 | a vector's sum of squares is non-negative, and 0 exactly when every component is 0 |
| Comparators.InverseDistance | backend/Laravel/app/Http/Controllers/ImageController.php:357-361 | the inverse distance lies in (0, 1] and is 1 exactly when the padded vectors are equal |
| Comparators.Cosine | backend/Laravel/app/Http/Controllers/ImageController.php:340-348 | the cosine lies in [-1, 1]; it is 0 exactly when the dot product is 0, so a zero vector on either side gives 0 through the divisor-1 fallback |
| Comparators.CosineNumeratorBound | backend/Laravel/app/Http/Controllers/ImageController.php:342-347 | the absolute dot product is at most the product of the magnitudes, so the `?: 1` fallback is taken only when the dot product is 0 |
| Comparators.PairSum | backend/Laravel/app/Http/Controllers/ImageController.php:323-327 | the sum over the full cross product lies in [0, \|Q\| \|I\|] and is positive when both lists are non-empty |
| Comparators.CompareDominantColors | backend/Laravel/app/Http/Controllers/ImageController.php:318-331 | with two non-empty colour lists the mean over all pairs lies in (0, 1] |
| Comparators.DominantColorsMeanIsOne | backend/Laravel/app/Http/Controllers/ImageController.php:318-331 | the colour mean is 1 exactly when every query colour equals every candidate colour |
| Comparators.RowSumFull | backend/Laravel/app/Http/Controllers/ImageController.php:324-326 | one query colour's row reaches its maximum \|I\| exactly when it equals every candidate colour |
| Comparators.PairSumFull | backend/Laravel/app/Http/Controllers/ImageController.php:323-327 | the cross-product sum reaches \|Q\| \|I\| exactly when every pair of colours is equal |
| Comparators.DominantColorsOfSingletons | backend/Laravel/app/Http/Controllers/ImageController.php:318-331 | with one colour on each side the mean is the inverse distance of the two colours |
| Comparators.CosineSelf | backend/Laravel/app/Http/Controllers/ImageController.php:340-348 | a non-zero vector has cosine 1 with itself |
| Comparators.CosineOfSingletons | backend/Laravel/app/Http/Controllers/ImageController.php:287 | the cosine of one-element vectors is the product of the signs, hence -1, 0 or 1 |
| Comparators.InverseDistanceOfSingletons | backend/Laravel/app/Http/Controllers/ImageController.php:291 | the inverse distance of one-element vectors is 1 / (1 + \|x - y\|) |
| Scorer.Compare | backend/Laravel/app/Http/Controllers/ImageController.php:271-276 | the unweighted comparator of a flat kind lies in [-1, 1], and is positive for the two distance kinds |
| Scorer.Similarities | backend/Laravel/app/Http/Controllers/ImageController.php:285-296 | the weighted path yields one similarity per query component, each in [-1, 1], and each positive for the distance kinds |
| Scorer.SimilaritiesAt | backend/Laravel/app/Http/Controllers/ImageController.php:286-296 | for a candidate at least as long as the query, similarity i compares query component i with candidate component i as one-element vectors |
| Scorer.ScoreFailure | backend/Laravel/app/Http/Controllers/ImageController.php:262-308 | the score is undefined exactly when an error is named; a division by zero exactly when a compared colour list is empty; an undefined key exactly when the colours are fine and some flat kind on the weighted path has a candidate vector shorter than the query's |
| Scorer.ShortCandidateExample | backend/Laravel/app/Http/Controllers/ImageController.php:293-296 | Gabor features [1, 2] weighted [0.5, 0.5] against a candidate carrying only [1] raise an undefined-key error |
| Scorer.WeightedSumIsLoop | backend/Laravel/app/Http/Controllers/ImageController.php:283-301 | the weighted contribution is the index-by-index sum of weight i times similarity i, where similarity i is the comparator on component i |
| Scorer.SimilaritiesClosedForm | backend/Laravel/app/Http/Controllers/ImageController.php:285-296 | per component, the weighted histogram term is the product of the signs, and a distance term is 1 / (1 + \|q_i - c_i\|) |
| Scorer.WeightedBound | backend/Laravel/app/Http/Controllers/ImageController.php:283-301 | non-negative weights keep a weighted sum of values in [-1, 1] within the total weight, and non-negative when the values are |
| Scorer.WeightedSumBound | backend/Laravel/app/Http/Controllers/ImageController.php:282-301 | with non-negative weights the weighted contribution lies within the total weight, and the distance kinds contribute a non-negative amount |
| Scorer.ComputeSimilarity | backend/Laravel/app/Http/Controllers/ImageController.php:257-309 | without weights the score lies in [-1, 4], and it is non-negative when the histogram is missing on either side |
| Scorer.VectorContributionBound | backend/Laravel/app/Http/Controllers/ImageController.php:264-305 | under non-negative weights a flat kind contributes at most 1 unweighted and at most its weights' total when weighted, and only the histogram can contribute a negative amount |
| Scorer.ScoreBound | backend/Laravel/app/Http/Controllers/ImageController.php:257-309 | under non-negative weights the score lies between minus the histogram's budget and 1 plus the three flat budgets |
| Scorer.MissingKindIsSkipped | backend/Laravel/app/Http/Controllers/ImageController.php:264 | a kind missing on either side changes nothing: the score equals the score with the kind removed from both sets |
| Scorer.MismatchedWeightsAreSkipped | backend/Laravel/app/Http/Controllers/ImageController.php:282-305 | a flat kind whose weight count differs from the query's component count contributes nothing |
| Scorer.MismatchedColourWeightsAreSkipped | backend/Laravel/app/Http/Controllers/ImageController.php:282-305 | a colour-weight count that differs from the query's colour count makes the dominant colours contribute nothing |
| Scorer.ColourWeightValuesAreIgnored | backend/Laravel/app/Http/Controllers/ImageController.php:297-298 | colour weights whose count matches give the same score as no colour weights: the aggregate comparator is used either way |
| Scorer.SelfScore | backend/Laravel/app/Http/Controllers/ImageController.php:263-308 | unweighted, a set compared with itself scores 1 per kind it carries, given one colour and a non-zero histogram |
| Scorer.ColourSelfScoreBelowOne | backend/Laravel/app/Http/Controllers/ImageController.php:318-331 | a colour list holding two different colours scores below 1 against itself |
| Scorer.HuMomentsExample | backend/Laravel/app/Http/Controllers/ImageController.php:273-274 | equal Hu moments and nothing else, unweighted, score exactly 1 |
| BayesianWeights.ColumnSumNonNegative | backend/Laravel/app/Http/Controllers/ImageController.php:452-466 | the summed values of one component are non-negative when every judged value is |
| BayesianWeights.CellSumNonNegative | backend/Laravel/app/Http/Controllers/ImageController.php:406-424 | the summed values of one colour channel are non-negative when every judged value is |
| BayesianWeights.PosteriorInUnit | backend/Laravel/app/Http/Controllers/ImageController.php:473-482 | with non-negative sums the clamped posterior lies in [0, 1] |
| BayesianWeights.PosteriorOfZero | backend/Laravel/app/Http/Controllers/ImageController.php:473-482 | a component whose relevant sum is 0 gets weight 0 |
| BayesianWeights.PosteriorWithoutIrrelevant | backend/Laravel/app/Http/Controllers/ImageController.php:473-482 | with no irrelevant images the posterior is min(relevant likelihood, 1) |
| BayesianWeights.UpdateInUnitInterval | backend/Laravel/app/Http/Controllers/ImageController.php:389-492 | with non-negative descriptor values every emitted weight, flat or per colour channel, lies in [0, 1] |
| BayesianWeights.WidthCoversKey | backend/Laravel/app/Http/Controllers/ImageController.php:452-458 | the keys summed for a kind are exactly those some relevant vector has a component at |
| BayesianWeights.ChannelWidthCoversSlot | backend/Laravel/app/Http/Controllers/ImageController.php:406-414 | a colour slot accumulates channels exactly when some entry has a non-empty colour there |
| BayesianWeights.WeightedKeys | backend/Laravel/app/Http/Controllers/ImageController.php:469-486 | a flat component receives a weight exactly when some relevant image carries that component |
| BayesianWeights.WeightedColourSlots | backend/Laravel/app/Http/Controllers/ImageController.php:427-446 | a colour slot receives weights exactly when some relevant image has a non-empty colour in that slot |
| BayesianWeights.NoRelevantNoWeights | backend/Laravel/app/Http/Controllers/ImageController.php:389-398 | with no relevant images the update is the empty configuration, whatever the irrelevant ones |
| BayesianWeights.OnlyRelevantWeights | backend/Laravel/app/Http/Controllers/ImageController.php:469-486 | with no irrelevant images each flat weight is its component's relevant mean, capped at 1 |
| BayesianWeights.UpdateBayesianWeights | backend/Laravel/app/Http/Controllers/ImageController.php:389-492 | with no relevant images the result is the empty configuration; each flat kind carries one weight per key the relevant images accumulate, and that weight is the posterior of the key's relevant and irrelevant column sums; a colour slot is weighted exactly when it has channels among the relevant images, carries one weight per channel the relevant images accumulate there, and each is the posterior of that channel's relevant and irrelevant cell sums |
| BayesianWeights.GaborExample | backend/Laravel/app/Http/Controllers/ImageController.php:447-486 | one relevant image with Gabor features [10, 0] and one irrelevant image with [0, 10], neither carrying another kind, yield the configuration with Gabor weights [1, 0] and no other weights |
| Catalog.FeaturesForIds | backend/Laravel/app/Http/Controllers/ImageController.php:369-380 | a descriptor entry is returned exactly when some catalogued image with a requested id carries it, and there are at most as many entries as catalogued images |
| Catalog.Lookup | backend/Laravel/app/Http/Controllers/ImageController.php:371 | an image is found exactly when it is catalogued and its id is requested |
| Catalog.LookupCount | backend/Laravel/app/Http/Controllers/ImageController.php:369-380 | with unique ids the lookup returns one descriptor set per requested id that exists; missing and repeated ids drop out |
| Catalog.LookupBySet | backend/Laravel/app/Http/Controllers/ImageController.php:371 | the lookup depends only on the set of requested ids, not on their order or repetition |
| Catalog.LookupNone | backend/Laravel/app/Http/Controllers/ImageController.php:369-380 | requesting only ids the catalogue lacks yields nothing |
| Ranking.ScoreAll | backend/Laravel/app/Http/Controllers/ImageController.php:225-245 | one hit per catalogued image with descriptors: the count equals the number of such images |
| Ranking.CatalogFailure | backend/Laravel/app/Http/Controllers/ImageController.php:230-242 | no error exactly when every catalogued image with descriptors can be scored; an error is the one raised by an image with descriptors all of whose predecessors can be scored |
| Ranking.TopResultsFromCatalog | backend/Laravel/app/Http/Controllers/ImageController.php:124-127 | every hit the search returns is the hit of a catalogued image with descriptors, with its score |
| Ranking.ScoreAllMembers | backend/Laravel/app/Http/Controllers/ImageController.php:230-242 | a hit is produced exactly for each catalogued image with descriptors, carrying its id, url, category and score |
| Ranking.Insert | backend/Laravel/app/Http/Controllers/ImageController.php:124 | inserting into a list sorted highest first keeps it sorted and adds exactly the one hit |
| Ranking.SortDesc | backend/Laravel/app/Http/Controllers/ImageController.php:124 | the sort is a permutation of the hits ordered by non-increasing similarity |
| Ranking.SortStable | backend/Laravel/app/Http/Controllers/ImageController.php:124 | hits of equal similarity keep their catalogue order |
| Ranking.InsertStable | backend/Laravel/app/Http/Controllers/ImageController.php:124 | the inserted hit goes ahead of the hits with its own score and leaves their order unchanged |
| Ranking.TopResults | backend/Laravel/app/Http/Controllers/ImageController.php:124-127 | the result holds min(10, number of hits) hits, is sorted, and is drawn from the hits |
| Ranking.TopResultsAreBest | backend/Laravel/app/Http/Controllers/ImageController.php:124-127 | every hit left out scores at most every hit kept |
| Ranking.SmallResultKeepsAll | backend/Laravel/app/Http/Controllers/ImageController.php:127 | with at most ten hits the result is a reordering of all of them |
| Ids.MergeIds | backend/Laravel/app/Http/Controllers/ImageController.php:157 | the merge has no repeated id and holds exactly the ids stored or submitted |
| Ids.DedupFrom | backend/Laravel/app/Http/Controllers/ImageController.php:157 | deduplication leaves no repeated id and holds exactly the ids not already seen |
| Ids.DedupFromAppend | backend/Laravel/app/Http/Controllers/ImageController.php:157 | deduplicating a concatenation gives the first part deduplicated, then the second part's ids not in the first |
| Ids.DedupFromNoDup | backend/Laravel/app/Http/Controllers/ImageController.php:157 | a list without repeats, none of them seen, is left unchanged |
| Ids.MergeKeepsStored | backend/Laravel/app/Http/Controllers/ImageController.php:157 | the stored duplicate-free list stays the prefix of the merge, followed by the new submitted ids |
| Ids.MergeIsUnion | backend/Laravel/app/Http/Controllers/ImageController.php:157-158 | the merge has no repeats and holds exactly the union of stored and submitted ids |
| Ids.DedupElements | backend/Laravel/app/Http/Controllers/ImageController.php:157 | deduplication keeps the set of ids |
| Ids.MergeRounds | backend/Laravel/app/Http/Controllers/ImageController.php:152-162 | merging two submissions in turn equals merging their concatenation once |
| Ids.MergeIdempotent | backend/Laravel/app/Http/Controllers/ImageController.php:152-162 | merging the same submission again changes nothing |
| Session.Search | backend/Laravel/app/Http/Controllers/ImageController.php:96-128 | the session is reset or kept before extraction; an extraction failure is reported exactly when extraction returns nothing; a scoring failure exactly when some catalogued image cannot be scored, carrying the error that image raises; a success is sorted, holds min(10, number of images with descriptors) hits, each the hit of a catalogued image, is a sub-multiset of all scored hits, and no hit left out scores above a hit kept |
| Session.BeginSearch | backend/Laravel/app/Http/Controllers/ImageController.php:96-109 | the stored hash becomes the query's; the same hash keeps the session as it is; a different or missing hash resets the weights and both id lists |
| Session.Expire | backend/Laravel/app/Http/Controllers/ImageController.php:96-107 | an expired key reads as its `Cache::get` default while the other keys read as before; expiry changes nothing exactly when the key already held its default; the next search with some image keeps the session exactly when the hash key did not expire and was that image's |
| Session.Feedback | backend/Laravel/app/Http/Controllers/ImageController.php:137-184 | the query hash is untouched; the stored id lists become duplicate-free and hold the union of old and submitted ids; the stored weights become the Bayesian update of the catalogued descriptor sets of the merged relevant and irrelevant lists |
| Session.BeginSearchKeepsWeightsCurrent | backend/Laravel/app/Http/Controllers/ImageController.php:96-109 | starting a search keeps the weights equal to the update of the stored judged ids: a reset stores empty lists and the update of nothing is the empty configuration |
| Session.FoundNonNegative | backend/Laravel/app/Http/Controllers/ImageController.php:369-380 | the descriptor sets found for any ids carry only non-negative values when every catalogued value is non-negative |
| Session.FeedbackWeightsInUnit | backend/Laravel/app/Http/Controllers/ImageController.php:168-179 | after a feedback round on a catalogue of non-negative descriptors every stored weight lies in [0, 1] |
| Session.BeginSearchIdempotent | backend/Laravel/app/Http/Controllers/ImageController.php:96-109 | starting a search twice with the same image resets at most once |
| Session.NewQueryDiscardsFeedback | backend/Laravel/app/Http/Controllers/ImageController.php:96-122 | a search with a different image resets the slot to the new hash with no weights and no judged ids, and scores unweighted |
| Session.SameQueryUsesFeedback | backend/Laravel/app/Http/Controllers/ImageController.php:96-122 | a search with the same image after feedback keeps the session and scores with the weights the feedback computed |
| Session.ExpiredHashResets | backend/Laravel/app/Http/Controllers/ImageController.php:96-104 | once the stored hash has expired, even the same image resets the session |
| Session.FeedbackIdempotent | backend/Laravel/app/Http/Controllers/ImageController.php:152-179 | resubmitting the same judgement leaves the session as after the first submission |
| Session.FeedbackRounds | backend/Laravel/app/Http/Controllers/ImageController.php:152-179 | two feedback rounds equal one round submitting both judgements, because the weights are recomputed from all judged ids |
| Session.FeedbackReplacesWeights | backend/Laravel/app/Http/Controllers/ImageController.php:178-179 | the weights before a feedback round have no influence on the session after it |
| Session.FeedbackWithoutRelevantImages | backend/Laravel/app/Http/Controllers/ImageController.php:169-179 | when no judged relevant id is catalogued the weights become the empty configuration |
| ClientFeedback.Init | frontend/src/utils/bayesianFeedback.js:2-10 | the constructor starts with no examples and normalised weights |
| ClientFeedback.Variance | frontend/src/utils/bayesianFeedback.js:48-54 | the variance is non-negative, and 1 for an empty list |
| ClientFeedback.VarianceZero | frontend/src/utils/bayesianFeedback.js:48-54 | a non-empty list has variance 0 exactly when all its values are equal |
| ClientFeedback.SquaredDeviationsZero | frontend/src/utils/bayesianFeedback.js:53 | the squared deviations from m vanish exactly when every value is m |
| ClientFeedback.Importance | frontend/src/utils/bayesianFeedback.js:39-46 | a kind's importance is non-negative |
| ClientFeedback.TotalImportanceZero | frontend/src/utils/bayesianFeedback.js:25-30 | the total importance is 0 exactly when there are irrelevant examples and each kind takes a single value among them |
| ClientFeedback.UpdateWeights | frontend/src/utils/bayesianFeedback.js:21-37 | the example lists are untouched; with no relevant example the client is unchanged; normalised weights stay normalised |
| ClientFeedback.Shares | frontend/src/utils/bayesianFeedback.js:29-36 | the three shares of a positive total are normalised, and each share times the total gives back its importance |
| ClientFeedback.AddFeedback | frontend/src/utils/bayesianFeedback.js:12-19 | the example is appended to exactly the list `isRelevant` selects and the other list is unchanged; with the guarded update, the weights stay normalised |
| ClientFeedback.ReplayNormalised | frontend/src/utils/bayesianFeedback.js:12-37 | with the guarded update, after any sequence of marks the weights of a normalised client are still normalised |
| ClientFeedback.UpdateWeightsAsWritten | frontend/src/utils/bayesianFeedback.js:21-37 | with no relevant example the weights are unchanged; with a total importance of 0 every weight is NaN; otherwise every weight is finite and, times the total, gives back its importance |
| ClientFeedback.DivideByTotal | frontend/src/utils/bayesianFeedback.js:29-36 | dividing three non-negative importances by their total gives all NaN when the total is 0, and otherwise finite shares that scale back to the importances |
| ClientFeedback.AsWrittenNaN | frontend/src/utils/bayesianFeedback.js:21-37 | the literal update produces NaN exactly when there is a relevant example, there are irrelevant examples, and each kind is constant among them |
| ClientFeedback.OneIrrelevantExampleGivesNaN | frontend/src/utils/bayesianFeedback.js:29-36 | one relevant and one irrelevant example make the literal update divide 0 by 0 for every kind |
| ClientFeedback.UpdateAgreesWhenDefined | frontend/src/utils/bayesianFeedback.js:21-37 | wherever the literal update yields no NaN, the guarded update gives the same weights |
| ClientFeedback.FirstRelevantExample | frontend/src/utils/bayesianFeedback.js:12-37 | marking a first example relevant makes the three weights 1/3 each |

## Left out

- HTTP handling, request validation, file upload and storage, the md5 hash of the upload, and the call to the feature-extraction service. The hash is a `string` parameter. The extracted descriptor set is an `Option<Features>` parameter, with `None` when extraction fails.
- The upload action and the duplicate check against the database (controller lines 28-71). They store images and take no part in scoring.
- The 300-second cache lifetime. There is no clock. `Session.Expire` resets one key to its default, which is what a later read observes.
- Unsynchronised concurrent requests against the one cache slot. Each action is one atomic state transition.
- IEEE floating point and PHP's `sqrt`. Numbers are exact reals, and the root is the `sqrt` parameter.
- JSON decoding of stored descriptor sets. A set that does not decode, or decodes to an empty array, is `None`. A kind whose key is missing or null is `None`.
- The check against null at controller line 172. `getFeaturesForImageIds` always returns an array, so that branch is dead.
- Logging.
- The catalogue order. `Image::all()` and `whereIn` do not promise an order, so the model fixes catalogue order. Ties in the sort keep that order.
- Image ids are natural numbers.
- ClientFeedback.Example: the client reads one value per kind. The class adds and subtracts those values, which only works for numbers, so each kind holds one real and not an array.
- ClientFeedback.AddFeedback: it calls the guarded update, so its "weights stay normalised" clause, and `ClientFeedback.Replay` built on it, does not hold for the class as written. `addFeedback` calls the unguarded `updateWeights`, which gives NaN weights after one irrelevant and then one relevant mark (see Findings).
- ClientFeedback.UpdateWeights: a total importance of 0 keeps the previous weights instead of producing NaN. The literal behaviour is modelled separately by `ClientFeedback.UpdateWeightsAsWritten` (see Findings).
- Scorer.ComputeSimilarity: only the unweighted score is bounded by its own contract. Weighted scores are bounded by `Scorer.ScoreBound`, which needs non-negative weights. The controller itself puts no bound on weights read from the cache.

## Findings

| source | as written | input that shows it | evidently intended | confidence | as-written member | corrected member |
|---|---|---|---|---|---|---|
| frontend/src/utils/bayesianFeedback.js:29-36 | the three importances are divided by their total with no guard, so a total of 0 gives 0 / 0 = NaN for every weight | mark one example irrelevant, then one example relevant: the irrelevant variance of each kind is 0, so every importance and the total are 0 | weights that stay normalised (in [0, 1], summing to 1) after every mark, keeping the previous weights when the total is 0 | not executed; follows from the arithmetic of lines 25-36 and 39-54 | ClientFeedback.OneIrrelevantExampleGivesNaN | ClientFeedback.ReplayNormalised |

=== FILE: bayesian_weights.dfy ===
/**
 * `updateBayesianWeights`: the weight configuration a relevance-feedback round
 * produces from the descriptor sets of every image judged relevant and every
 * image judged irrelevant so far.
 *
 * For each component that some relevant image carries (a vector index of a
 * flat kind, or a colour slot and channel of the dominant colours) the weight is
 * the clamped Bayesian ratio
 *   (L_rel P_rel) / max(L_rel P_rel + L_irr P_irr, 1)
 * with likelihoods L = column sum / max(count, 1) and priors
 * P = count / max(total count, 1).
 */
module BayesianWeights {
  import opened Wrappers
  import opened RealMath
  import opened Vectors
  import opened Descriptors

  /**
   * The judged images' descriptor sets, one entry per catalogued image found.
   * An entry is `None` when the stored features do not decode; it still
   * counts towards the number of judged images but carries no kind.
   */
  type Judged = seq<Option<Features>>

  function NatMax(a: nat, b: nat): nat {
    if a >= b then a else b
  }

  /** The vector of kind k of entry f, if it carries one. */
  function VectorOf(f: Option<Features>, k: VectorKind): Option<seq<real>> {
    if f.None? then None else f.value.Vector(k)
  }

  /** The colour list of entry f, if it carries one. */
  function ColoursOf(f: Option<Features>): Option<seq<seq<real>>> {
    if f.None? then None else f.value.dominantColors
  }

  /** The longest vector of kind k among the entries: the number of keys PHP accumulates for k. */
  function Width(fs: Judged, k: VectorKind): nat {
    if |fs| == 0 then 0
    else
      var v := VectorOf(fs[0], k);
      NatMax(if v.Some? then |v.value| else 0, Width(fs[1..], k))
  }

  /** The sum of component `key` of kind k over the entries carrying k (missing components add nothing). */
  function ColumnSum(fs: Judged, k: VectorKind, key: nat): real {
    if |fs| == 0 then 0.0
    else
      var v := VectorOf(fs[0], k);
      (if v.Some? then At(v.value, key) else 0.0) + ColumnSum(fs[1..], k, key)
  }

  /** The longest colour list among the entries. */
  function ColorSlots(fs: Judged): nat {
    if |fs| == 0 then 0
    else
      var cs := ColoursOf(fs[0]);
      NatMax(if cs.Some? then |cs.value| else 0, ColorSlots(fs[1..]))
  }

  /** The number of channels colour slot ci has in the entry with the most channels there. */
  function ChannelWidth(fs: Judged, ci: nat): nat {
    if |fs| == 0 then 0
    else
      var cs := ColoursOf(fs[0]);
      NatMax(if cs.Some? && ci < |cs.value| then |cs.value[ci]| else 0, ChannelWidth(fs[1..], ci))
  }

  /** The sum of channel ch of colour slot ci over the entries that have it. */
  function CellSum(fs: Judged, ci: nat, ch: nat): real {
    if |fs| == 0 then 0.0
    else
      var cs := ColoursOf(fs[0]);
      (if cs.Some? && ci < |cs.value| then At(cs.value[ci], ch) else 0.0) + CellSum(fs[1..], ci, ch)
  }

  /** x / max(n, 1) for a count n. */
  function PerCount(x: real, n: nat): real {
    x / (if n >= 1 then n as real else 1.0)
  }

  /** The clamped posterior of one component from its column sums and the two image counts. */
  function Posterior(relSum: real, irrSum: real, nRel: nat, nIrr: nat): real {
    var joint := PerCount(relSum, nRel) * PerCount(nRel as real, nRel + nIrr);
    var other := PerCount(irrSum, nIrr) * PerCount(nIrr as real, nRel + nIrr);
    joint / Max(joint + other, 1.0)
  }

  /** The weights of flat kind k: one posterior per key some relevant image carries. */
  function FlatWeights(rel: Judged, irr: Judged, k: VectorKind): seq<real> {
    seq(Width(rel, k), key requires 0 <= key => Posterior(ColumnSum(rel, k, key), ColumnSum(irr, k, key), |rel|, |irr|))
  }

  /** The weights of the dominant colours: per colour slot with channels among the relevant images, one posterior per channel. */
  function ColourWeights(rel: Judged, irr: Judged): map<nat, seq<real>> {
    map ci: nat | ci < ColorSlots(rel) && ChannelWidth(rel, ci) > 0 ::
      seq(ChannelWidth(rel, ci), ch requires 0 <= ch => Posterior(CellSum(rel, ci, ch), CellSum(irr, ci, ch), |rel|, |irr|))
  }

  /**
   * `updateBayesianWeights`. Without relevant images the result is the empty
   * configuration; otherwise every flat kind carries one posterior per key the
   * relevant images accumulate, computed from that key's two column sums, and
   * every colour slot with channels among the relevant images carries one
   * posterior per channel, computed from that channel's two cell sums.
   */
  function UpdateBayesianWeights(rel: Judged, irr: Judged): (w: Weights)
    ensures |rel| == 0 ==> w == NoWeights
    ensures forall k: VectorKind :: |w.Vector(k)| == Width(rel, k)
    ensures forall k: VectorKind, key :: 0 <= key < |w.Vector(k)| ==>
      w.Vector(k)[key] == Posterior(ColumnSum(rel, k, key), ColumnSum(irr, k, key), |rel|, |irr|)
    ensures forall ci: nat :: ci in w.dominantColors <==> ci < ColorSlots(rel) && ChannelWidth(rel, ci) > 0
    ensures forall ci :: ci in w.dominantColors ==> |w.dominantColors[ci]| == ChannelWidth(rel, ci)
    ensures forall ci, ch :: ci in w.dominantColors && 0 <= ch < |w.dominantColors[ci]| ==>
      w.dominantColors[ci][ch] == Posterior(CellSum(rel, ci, ch), CellSum(irr, ci, ch), |rel|, |irr|)
  {
    if |rel| == 0 && |irr| == 0 then NoWeights
    else Weights(
      ColourWeights(rel, irr),
      FlatWeights(rel, irr, ColorHistogram),
      FlatWeights(rel, irr, GaborFeatures),
      FlatWeights(rel, irr, HuMoments))
  }

  /** Every descriptor value of the entry is non-negative. */
  ghost predicate NonNegativeFeatures(f: Features) {
    (f.colorHistogram.Some? ==> NonNegative(f.colorHistogram.value))
    && (f.gaborFeatures.Some? ==> NonNegative(f.gaborFeatures.value))
    && (f.huMoments.Some? ==> NonNegative(f.huMoments.value))
    && (f.dominantColors.Some? ==> forall ci :: 0 <= ci < |f.dominantColors.value| ==> NonNegative(f.dominantColors.value[ci]))
  }

  ghost predicate NonNegativeData(fs: Judged) {
    forall i :: 0 <= i < |fs| && fs[i].Some? ==> NonNegativeFeatures(fs[i].value)
  }

  /** Every weight of the configuration lies in [0, 1]. */
  ghost predicate UnitWeights(w: Weights) {
    (forall k: VectorKind, i :: 0 <= i < |w.Vector(k)| ==> 0.0 <= w.Vector(k)[i] <= 1.0)
    && (forall ci, ch :: ci in w.dominantColors && 0 <= ch < |w.dominantColors[ci]| ==> 0.0 <= w.dominantColors[ci][ch] <= 1.0)
  }

  lemma AtNonNegative(v: seq<real>, key: nat)
    requires NonNegative(v)
    ensures 0.0 <= At(v, key)
  {
  }

  /** Column sums of non-negative data are non-negative. */
  lemma {:induction false} ColumnSumNonNegative(fs: Judged, k: VectorKind, key: nat)
    requires NonNegativeData(fs)
    ensures 0.0 <= ColumnSum(fs, k, key)
  {
    if |fs| > 0 {
      assert NonNegativeData(fs[1..]) by {
        forall i | 0 <= i < |fs[1..]| && fs[1..][i].Some?
          ensures NonNegativeFeatures(fs[1..][i].value)
        {
          assert fs[1..][i] == fs[i + 1];
        }
      }
      ColumnSumNonNegative(fs[1..], k, key);
      var v := VectorOf(fs[0], k);
      if v.Some? {
        assert NonNegativeFeatures(fs[0].value);
        AtNonNegative(v.value, key);
      }
    }
  }

  /** Cell sums of non-negative data are non-negative. */
  lemma {:induction false} CellSumNonNegative(fs: Judged, ci: nat, ch: nat)
    requires NonNegativeData(fs)
    ensures 0.0 <= CellSum(fs, ci, ch)
  {
    if |fs| > 0 {
      assert NonNegativeData(fs[1..]) by {
        forall i | 0 <= i < |fs[1..]| && fs[1..][i].Some?
          ensures NonNegativeFeatures(fs[1..][i].value)
        {
          assert fs[1..][i] == fs[i + 1];
        }
      }
      CellSumNonNegative(fs[1..], ci, ch);
      var cs := ColoursOf(fs[0]);
      if cs.Some? && ci < |cs.value| {
        assert NonNegativeFeatures(fs[0].value);
        AtNonNegative(cs.value[ci], ch);
      }
    }
  }

  lemma PerCountNonNegative(x: real, n: nat)
    requires 0.0 <= x
    ensures 0.0 <= PerCount(x, n)
  {
    Quotient(x, if n >= 1 then n as real else 1.0);
  }

  /** With non-negative column sums the posterior is a number in [0, 1]. */
  lemma PosteriorInUnit(relSum: real, irrSum: real, nRel: nat, nIrr: nat)
    requires 0.0 <= relSum && 0.0 <= irrSum
    ensures 0.0 <= Posterior(relSum, irrSum, nRel, nIrr) <= 1.0
  {
    var lr, pr := PerCount(relSum, nRel), PerCount(nRel as real, nRel + nIrr);
    var li, pi := PerCount(irrSum, nIrr), PerCount(nIrr as real, nRel + nIrr);
    PerCountNonNegative(relSum, nRel);
    PerCountNonNegative(nRel as real, nRel + nIrr);
    PerCountNonNegative(irrSum, nIrr);
    PerCountNonNegative(nIrr as real, nRel + nIrr);
    MulNonNegative(lr, pr);
    MulNonNegative(li, pi);
    Quotient(lr * pr, Max(lr * pr + li * pi, 1.0));
  }

  /** A component no relevant image has a positive value for gets weight 0. */
  lemma PosteriorOfZero(irrSum: real, nRel: nat, nIrr: nat)
    ensures Posterior(0.0, irrSum, nRel, nIrr) == 0.0
  {
    var pr := PerCount(nRel as real, nRel + nIrr);
    assert PerCount(0.0, nRel) == 0.0;
    assert PerCount(0.0, nRel) * pr == 0.0;
  }

  /**
   * Without irrelevant images the posterior is the relevant mean of the
   * component, capped at 1.
   */
  lemma PosteriorWithoutIrrelevant(relSum: real, irrSum: real, nRel: nat)
    requires nRel >= 1
    ensures Posterior(relSum, irrSum, nRel, 0) == Min(relSum / nRel as real, 1.0)
  {
    var n := nRel as real;
    assert PerCount(n, nRel) == 1.0;
    assert PerCount(0.0, nRel) == 0.0;
    var lr := relSum / n;
    assert PerCount(relSum, nRel) * PerCount(n, nRel) == lr;
    assert PerCount(irrSum, 0) * PerCount(0.0, nRel) == 0.0;
    if lr >= 1.0 {
      Quotient(lr, lr);
    }
  }

  /** Every weight of the update lies in [0, 1] when all judged descriptor values are non-negative. */
  lemma UpdateInUnitInterval(rel: Judged, irr: Judged)
    requires NonNegativeData(rel) && NonNegativeData(irr)
    ensures UnitWeights(UpdateBayesianWeights(rel, irr))
  {
    var w := UpdateBayesianWeights(rel, irr);
    if |rel| > 0 || |irr| > 0 {
      forall k: VectorKind, key | 0 <= key < |w.Vector(k)|
        ensures 0.0 <= w.Vector(k)[key] <= 1.0
      {
        ColumnSumNonNegative(rel, k, key);
        ColumnSumNonNegative(irr, k, key);
        PosteriorInUnit(ColumnSum(rel, k, key), ColumnSum(irr, k, key), |rel|, |irr|);
      }
      forall ci, ch | ci in w.dominantColors && 0 <= ch < |w.dominantColors[ci]|
        ensures 0.0 <= w.dominantColors[ci][ch] <= 1.0
      {
        CellSumNonNegative(rel, ci, ch);
        CellSumNonNegative(irr, ci, ch);
        PosteriorInUnit(CellSum(rel, ci, ch), CellSum(irr, ci, ch), |rel|, |irr|);
      }
    }
  }

  /** Some entry carries a vector of kind k with a component at `key`. */
  ghost predicate SomeHasKey(fs: Judged, k: VectorKind, key: nat) {
    exists i :: 0 <= i < |fs| && VectorOf(fs[i], k).Some? && key < |VectorOf(fs[i], k).value|
  }

  /** Some entry has a non-empty colour at slot ci. */
  ghost predicate SomeHasColour(fs: Judged, ci: nat) {
    exists i :: 0 <= i < |fs| && ColoursOf(fs[i]).Some? && ci < |ColoursOf(fs[i]).value|
      && |ColoursOf(fs[i]).value[ci]| > 0
  }

  /** The width exceeds `key` exactly when some entry has that component. */
  lemma {:induction false} WidthCoversKey(fs: Judged, k: VectorKind, key: nat)
    ensures key < Width(fs, k) <==> SomeHasKey(fs, k, key)
  {
    if |fs| > 0 {
      WidthCoversKey(fs[1..], k, key);
      if SomeHasKey(fs[1..], k, key) {
        var i :| 0 <= i < |fs[1..]| && VectorOf(fs[1..][i], k).Some? && key < |VectorOf(fs[1..][i], k).value|;
        assert fs[1..][i] == fs[i + 1];
      }
      if SomeHasKey(fs, k, key) && !(VectorOf(fs[0], k).Some? && key < |VectorOf(fs[0], k).value|) {
        var i :| 0 <= i < |fs| && VectorOf(fs[i], k).Some? && key < |VectorOf(fs[i], k).value|;
        assert i > 0 && fs[i] == fs[1..][i - 1];
      }
    }
  }

  /** Colour slot ci has channels exactly when some entry has a non-empty colour there. */
  lemma {:induction false} ChannelWidthCoversSlot(fs: Judged, ci: nat)
    ensures ChannelWidth(fs, ci) > 0 <==> SomeHasColour(fs, ci)
    ensures ChannelWidth(fs, ci) > 0 ==> ci < ColorSlots(fs)
  {
    if |fs| > 0 {
      ChannelWidthCoversSlot(fs[1..], ci);
      if SomeHasColour(fs[1..], ci) {
        var i :| 0 <= i < |fs[1..]| && ColoursOf(fs[1..][i]).Some? && ci < |ColoursOf(fs[1..][i]).value|
          && |ColoursOf(fs[1..][i]).value[ci]| > 0;
        assert fs[1..][i] == fs[i + 1];
      }
      var cs := ColoursOf(fs[0]);
      if SomeHasColour(fs, ci) && !(cs.Some? && ci < |cs.value| && |cs.value[ci]| > 0) {
        var i :| 0 <= i < |fs| && ColoursOf(fs[i]).Some? && ci < |ColoursOf(fs[i]).value|
          && |ColoursOf(fs[i]).value[ci]| > 0;
        assert i > 0 && fs[i] == fs[1..][i - 1];
      }
    }
  }

  /**
   * A flat component receives a weight exactly when some relevant image carries
   * it; the irrelevant images never add components.
   */
  lemma WeightedKeys(rel: Judged, irr: Judged, k: VectorKind, key: nat)
    ensures key < |UpdateBayesianWeights(rel, irr).Vector(k)| <==> SomeHasKey(rel, k, key)
  {
    WidthCoversKey(rel, k, key);
  }

  /** A colour slot receives weights exactly when some relevant image has a non-empty colour there. */
  lemma WeightedColourSlots(rel: Judged, irr: Judged, ci: nat)
    ensures ci in UpdateBayesianWeights(rel, irr).dominantColors <==> SomeHasColour(rel, ci)
  {
    ChannelWidthCoversSlot(rel, ci);
  }

  /** Without relevant images the update is the empty configuration, whatever the irrelevant ones. */
  lemma NoRelevantNoWeights(rel: Judged, irr: Judged)
    requires |rel| == 0
    ensures UpdateBayesianWeights(rel, irr) == NoWeights
  {
    assert ColourWeights(rel, irr) == map[];
  }

  /** Without irrelevant images every flat weight is the relevant mean of its component, capped at 1. */
  lemma OnlyRelevantWeights(rel: Judged, k: VectorKind, key: nat)
    requires |rel| > 0
    requires key < Width(rel, k)
    ensures UpdateBayesianWeights(rel, []).Vector(k)[key] == Min(ColumnSum(rel, k, key) / |rel| as real, 1.0)
  {
    PosteriorWithoutIrrelevant(ColumnSum(rel, k, key), ColumnSum([], k, key), |rel|);
  }

  /**
   * One relevant image with Gabor features [10, 0] and one irrelevant image
   * with [0, 10], neither carrying another kind: the first Gabor component
   * gets weight 1, the second weight 0, and no other kind gets weights.
   */
  lemma GaborExample()
    ensures UpdateBayesianWeights([Some(Features(None, None, Some([10.0, 0.0]), None))],
                                  [Some(Features(None, None, Some([0.0, 10.0]), None))])
      == Weights(map[], [], [1.0, 0.0], [])
  {
    var rel: Judged := [Some(Features(None, None, Some([10.0, 0.0]), None))];
    var irr: Judged := [Some(Features(None, None, Some([0.0, 10.0]), None))];
    assert rel[1..] == [] && irr[1..] == [];
    assert Width(rel, GaborFeatures) == 2;
    assert ColumnSum(rel, GaborFeatures, 0) == 10.0;
    assert ColumnSum(irr, GaborFeatures, 0) == 0.0;
    assert ColumnSum(rel, GaborFeatures, 1) == 0.0;
    assert ColumnSum(irr, GaborFeatures, 1) == 10.0;
    assert PerCount(10.0, 1) == 10.0 && PerCount(1.0, 2) == 0.5 && PerCount(0.0, 1) == 0.0;
    assert Posterior(10.0, 0.0, 1, 1) == 1.0;
    PosteriorOfZero(10.0, 1, 1);
    assert Width(rel, ColorHistogram) == 0 && Width(rel, HuMoments) == 0;
    assert ColourWeights(rel, irr) == map[] by {
      forall ci: nat
        ensures ChannelWidth(rel, ci) == 0
      {
        assert ChannelWidth(rel[1..], ci) == 0;
      }
    }
  }
}

=== FILE: catalog.dfy ===
/**
 * The image catalogue as the controller reads it, and `getFeaturesForImageIds`,
 * the lookup that feeds the judged images' descriptor sets to the updater.
 */
module Catalog {
  import opened Wrappers
  import opened Descriptors

  /**
   * A catalogued image. `features` is `None` when the stored descriptor JSON
   * decodes to nothing (null or an empty array), which PHP treats as false.
   */
  datatype Image = Image(id: nat, url: string, category: string, features: Option<Features>)

  /** Image ids are primary keys: no two catalogued images share one. */
  ghost predicate UniqueIds(catalog: seq<Image>) {
    forall i, j :: 0 <= i < j < |catalog| ==> catalog[i].id != catalog[j].id
  }

  /** The catalogued images whose id is requested, in catalogue order (the `whereIn` query). */
  function Lookup(catalog: seq<Image>, ids: seq<nat>): (found: seq<Image>)
    ensures forall x :: x in found <==> x in catalog && x.id in ids
    ensures |found| <= |catalog|
  {
    if |catalog| == 0 then []
    else if catalog[0].id in ids then [catalog[0]] + Lookup(catalog[1..], ids)
    else Lookup(catalog[1..], ids)
  }

  /** `getFeaturesForImageIds`: the descriptor sets of the requested images that exist. */
  function FeaturesForIds(catalog: seq<Image>, ids: seq<nat>): (fs: seq<Option<Features>>)
    ensures forall f :: f in fs <==> exists x :: x in catalog && x.id in ids && x.features == f
    ensures |fs| <= |catalog|
  {
    var found := Lookup(catalog, ids);
    var fs := seq(|found|, i requires 0 <= i < |found| => found[i].features);
    assert forall f :: f in fs <==> exists x :: x in catalog && x.id in ids && x.features == f by {
      forall f | f in fs
        ensures exists x :: x in catalog && x.id in ids && x.features == f
      {
        var i :| 0 <= i < |fs| && fs[i] == f;
        assert found[i] in found;
      }
      forall f | exists x :: x in catalog && x.id in ids && x.features == f
        ensures f in fs
      {
        var x :| x in catalog && x.id in ids && x.features == f;
        var i :| 0 <= i < |found| && found[i] == x;
        assert fs[i] == f;
      }
    }
    fs
  }

  /** The requested ids that the catalogue holds. */
  ghost function FoundIds(catalog: seq<Image>, ids: seq<nat>): set<nat> {
    set x | x in catalog && x.id in ids :: x.id
  }

  /**
   * With unique ids the lookup yields one descriptor set per requested id that
   * exists: requested ids that are missing, and repeated ids, add nothing.
   */
  lemma {:induction false} LookupCount(catalog: seq<Image>, ids: seq<nat>)
    requires UniqueIds(catalog)
    ensures |FeaturesForIds(catalog, ids)| == |FoundIds(catalog, ids)|
  {
    LookupCountRec(catalog, ids);
  }

  lemma {:induction false} LookupCountRec(catalog: seq<Image>, ids: seq<nat>)
    requires UniqueIds(catalog)
    ensures |Lookup(catalog, ids)| == |FoundIds(catalog, ids)|
  {
    if |catalog| > 0 {
      var rest := catalog[1..];
      assert UniqueIds(rest) by {
        forall i, j | 0 <= i < j < |rest|
          ensures rest[i].id != rest[j].id
        {
          assert rest[i] == catalog[i + 1] && rest[j] == catalog[j + 1];
        }
      }
      LookupCountRec(rest, ids);
      var x := catalog[0];
      assert x.id !in FoundIds(rest, ids);
      if x.id in ids {
        assert FoundIds(catalog, ids) == {x.id} + FoundIds(rest, ids) by {
          assert forall y :: y in catalog <==> y == x || y in rest;
        }
      } else {
        assert FoundIds(catalog, ids) == FoundIds(rest, ids) by {
          assert forall y :: y in catalog <==> y == x || y in rest;
        }
      }
    }
  }

  /** The lookup depends on the requested ids only as a set: order and repetition do not matter. */
  lemma {:induction false} LookupBySet(catalog: seq<Image>, ids: seq<nat>, ids': seq<nat>)
    requires forall i :: i in ids <==> i in ids'
    ensures FeaturesForIds(catalog, ids) == FeaturesForIds(catalog, ids')
  {
    LookupBySetRec(catalog, ids, ids');
  }

  lemma {:induction false} LookupBySetRec(catalog: seq<Image>, ids: seq<nat>, ids': seq<nat>)
    requires forall i :: i in ids <==> i in ids'
    ensures Lookup(catalog, ids) == Lookup(catalog, ids')
  {
    if |catalog| > 0 {
      LookupBySetRec(catalog[1..], ids, ids');
    }
  }

  /** Requesting only ids the catalogue does not hold yields no descriptor sets. */
  lemma LookupNone(catalog: seq<Image>, ids: seq<nat>)
    requires forall x :: x in catalog ==> x.id !in ids
    ensures FeaturesForIds(catalog, ids) == []
  {
    var found := Lookup(catalog, ids);
    if |found| > 0 {
      assert found[0] in found;
    }
  }
}

=== FILE: client_feedback.dfy ===
/**
 * The browser-side `BayesianFeedback` class: it keeps the examples the user
 * marked relevant and irrelevant and re-weights the three flat descriptor
 * kinds after every mark. A kind whose values agree among the relevant
 * examples and spread among the irrelevant ones becomes more important.
 *
 * Each example carries one number per kind. Two versions of the weight update
 * are modelled: `UpdateWeightsAsWritten` follows the class literally, including
 * the 0 / 0 it divides when the total importance is 0, and `UpdateWeights`
 * keeps the previous weights in that case.
 */
module ClientFeedback {
  import opened RealMath

  /** The three kinds the client weighs. */
  datatype ClientKind = Histogram | Gabor | Hu

  /** One judged example: its value for each kind. */
  datatype Example = Example(colorHistogram: real, gaborFeatures: real, huMoments: real) {
    function Value(k: ClientKind): real {
      match k
      case Histogram => colorHistogram
      case Gabor => gaborFeatures
      case Hu => huMoments
    }
  }

  datatype ClientWeights = ClientWeights(colorHistogram: real, gaborFeatures: real, huMoments: real) {
    function Weight(k: ClientKind): real {
      match k
      case Histogram => colorHistogram
      case Gabor => gaborFeatures
      case Hu => huMoments
    }
  }

  /** The state of a `BayesianFeedback` object. */
  datatype Client = Client(relevant: seq<Example>, irrelevant: seq<Example>, weights: ClientWeights)

  /** The weights sum to 1 and each lies in [0, 1]. */
  predicate Normalised(w: ClientWeights) {
    0.0 <= w.colorHistogram <= 1.0 && 0.0 <= w.gaborFeatures <= 1.0 && 0.0 <= w.huMoments <= 1.0
    && w.colorHistogram + w.gaborFeatures + w.huMoments == 1.0
  }

  /** The constructor: no examples, weights 0.4 / 0.3 / 0.3. */
  function Init(): (c: Client)
    ensures c.relevant == [] && c.irrelevant == []
    ensures Normalised(c.weights)
  {
    Client([], [], ClientWeights(0.4, 0.3, 0.3))
  }

  /** The values of kind k over a list of examples. */
  function Values(xs: seq<Example>, k: ClientKind): (vs: seq<real>)
    ensures |vs| == |xs|
    ensures forall i :: 0 <= i < |xs| ==> vs[i] == xs[i].Value(k)
  {
    seq(|xs|, i requires 0 <= i < |xs| => xs[i].Value(k))
  }

  /** The sum of the squared deviations of the values from m. */
  function SquaredDeviations(vs: seq<real>, m: real): (r: real)
    ensures 0.0 <= r
  {
    if |vs| == 0 then 0.0
    else
      SquarePositive(vs[0] - m);
      Square(vs[0] - m) + SquaredDeviations(vs[1..], m)
  }

  /** `calculateVariance`: 1 for no values, otherwise the population variance. */
  function Variance(vs: seq<real>): (r: real)
    ensures 0.0 <= r
    ensures |vs| == 0 ==> r == 1.0
  {
    if |vs| == 0 then 1.0
    else
      var n := |vs| as real;
      Quotient(SquaredDeviations(vs, Sum(vs) / n), n);
      SquaredDeviations(vs, Sum(vs) / n) / n
  }

  /** The relevant-variance offset that keeps the importance finite. */
  const Epsilon: real := 0.000001

  /** `calculateFeatureImportance`: the irrelevant variance over the relevant variance plus 1e-6. */
  function Importance(c: Client, k: ClientKind): (r: real)
    ensures 0.0 <= r
  {
    var relVar := Variance(Values(c.relevant, k));
    var irrVar := Variance(Values(c.irrelevant, k));
    Quotient(irrVar, relVar + Epsilon);
    irrVar / (relVar + Epsilon)
  }

  function TotalImportance(c: Client): real {
    Importance(c, Histogram) + Importance(c, Gabor) + Importance(c, Hu)
  }

  /** A JavaScript number as the update produces it: finite, or NaN from 0 / 0. */
  datatype Number = Finite(value: real) | NaN

  /** JavaScript division of a non-negative numerator: 0 / 0 is NaN. */
  function JsDivide(a: real, b: real): (r: Number)
    requires 0.0 <= a && 0.0 <= b
    requires b == 0.0 ==> a == 0.0
    ensures r.NaN? <==> b == 0.0
    ensures r.Finite? ==> r.value * b == a
  {
    if b == 0.0 then NaN
    else
      DivMul(a, b);
      Finite(a / b)
  }

  datatype NumberWeights = NumberWeights(colorHistogram: Number, gaborFeatures: Number, huMoments: Number)

  function AsNumbers(w: ClientWeights): NumberWeights {
    NumberWeights(Finite(w.colorHistogram), Finite(w.gaborFeatures), Finite(w.huMoments))
  }

  /** `updateWeights` as written: each importance divided by the total, with no guard against a zero total. */
  function UpdateWeightsAsWritten(c: Client): (r: NumberWeights)
    ensures |c.relevant| == 0 ==> r == AsNumbers(c.weights)
    ensures |c.relevant| > 0 && TotalImportance(c) == 0.0 ==> r == NumberWeights(NaN, NaN, NaN)
    ensures |c.relevant| > 0 && TotalImportance(c) != 0.0 ==>
      SharesOf(r, Importance(c, Histogram), Importance(c, Gabor), Importance(c, Hu))
  {
    if |c.relevant| == 0 then AsNumbers(c.weights)
    else DivideByTotal(Importance(c, Histogram), Importance(c, Gabor), Importance(c, Hu))
  }

  /**
   * Three non-negative importances each divided by their total as JavaScript
   * divides: all NaN when the total is 0, otherwise finite shares that scale
   * back to the importances.
   */
  function DivideByTotal(h: real, g: real, m: real): (r: NumberWeights)
    requires 0.0 <= h && 0.0 <= g && 0.0 <= m
    ensures h + g + m == 0.0 ==> r == NumberWeights(NaN, NaN, NaN)
    ensures h + g + m != 0.0 ==> SharesOf(r, h, g, m)
  {
    var total := h + g + m;
    NumberWeights(JsDivide(h, total), JsDivide(g, total), JsDivide(m, total))
  }

  /** Each weight is a finite number that, times the total h + g + m, gives back its importance. */
  predicate SharesOf(r: NumberWeights, h: real, g: real, m: real) {
    && r.colorHistogram.Finite? && r.colorHistogram.value * (h + g + m) == h
    && r.gaborFeatures.Finite? && r.gaborFeatures.value * (h + g + m) == g
    && r.huMoments.Finite? && r.huMoments.value * (h + g + m) == m
  }

  /**
   * `updateWeights` with the evidently intended guard: each importance divided
   * by the total, and the previous weights kept when the total is 0.
   */
  function UpdateWeights(c: Client): (r: Client)
    ensures r.relevant == c.relevant && r.irrelevant == c.irrelevant
    ensures |c.relevant| == 0 ==> r == c
    ensures Normalised(c.weights) ==> Normalised(r.weights)
  {
    var total := TotalImportance(c);
    if |c.relevant| == 0 || total == 0.0 then c
    else c.(weights := Shares(Importance(c, Histogram), Importance(c, Gabor), Importance(c, Hu), total))
  }

  /**
   * Three non-negative importances as shares of their positive total: the
   * shares add up to 1 and each, times the total, gives back its importance.
   */
  function Shares(h: real, g: real, m: real, total: real): (w: ClientWeights)
    requires 0.0 <= h && 0.0 <= g && 0.0 <= m && total == h + g + m && 0.0 < total
    ensures Normalised(w)
    ensures w.colorHistogram * total == h
    ensures w.gaborFeatures * total == g
    ensures w.huMoments * total == m
  {
    Quotient(h, total);
    Quotient(g, total);
    Quotient(m, total);
    SharesSumToOne(h, g, m);
    DivMul(h, total);
    DivMul(g, total);
    DivMul(m, total);
    ClientWeights(h / total, g / total, m / total)
  }

  /** Three non-negative shares of a positive total add up to 1. */
  lemma SharesSumToOne(a: real, b: real, c: real)
    requires 0.0 <= a && 0.0 <= b && 0.0 <= c && 0.0 < a + b + c
    ensures a / (a + b + c) + b / (a + b + c) + c / (a + b + c) == 1.0
  {
    var t := a + b + c;
    assert a / t + b / t + c / t == (a + b + c) / t;
  }

  /** `addFeedback`: append the example to the list `isRelevant` selects, then update the weights. */
  function AddFeedback(c: Client, example: Example, isRelevant: bool): (r: Client)
    ensures isRelevant ==> r.relevant == c.relevant + [example] && r.irrelevant == c.irrelevant
    ensures !isRelevant ==> r.irrelevant == c.irrelevant + [example] && r.relevant == c.relevant
    ensures Normalised(c.weights) ==> Normalised(r.weights)
  {
    if isRelevant then UpdateWeights(c.(relevant := c.relevant + [example]))
    else UpdateWeights(c.(irrelevant := c.irrelevant + [example]))
  }

  /** The client after a sequence of marks, each an example and whether it is relevant. */
  function Replay(c: Client, marks: seq<(Example, bool)>): Client
    decreases |marks|
  {
    if |marks| == 0 then c else Replay(AddFeedback(c, marks[0].0, marks[0].1), marks[1..])
  }

  /** Whatever the user marks, the weights of a client built by the constructor stay normalised. */
  lemma {:induction false} ReplayNormalised(c: Client, marks: seq<(Example, bool)>)
    requires Normalised(c.weights)
    ensures Normalised(Replay(c, marks).weights)
    decreases |marks|
  {
    if |marks| > 0 {
      ReplayNormalised(AddFeedback(c, marks[0].0, marks[0].1), marks[1..]);
    }
  }

  /** All values are equal. */
  ghost predicate Constant(vs: seq<real>) {
    forall i, j :: 0 <= i < |vs| && 0 <= j < |vs| ==> vs[i] == vs[j]
  }

  /** The squared deviations from m vanish exactly when every value is m. */
  lemma {:induction false} SquaredDeviationsZero(vs: seq<real>, m: real)
    ensures SquaredDeviations(vs, m) == 0.0 <==> forall i :: 0 <= i < |vs| ==> vs[i] == m
  {
    if |vs| > 0 {
      SquaredDeviationsZero(vs[1..], m);
      SquarePositive(vs[0] - m);
      if forall i :: 0 <= i < |vs[1..]| ==> vs[1..][i] == m {
        forall i | 0 <= i < |vs| && i > 0
          ensures vs[i] == m
        {
          assert vs[i] == vs[1..][i - 1];
        }
      }
    }
  }

  /** The sum of n copies of one value is n times it. */
  lemma {:induction false} SumOfConstant(vs: seq<real>, m: real)
    requires forall i :: 0 <= i < |vs| ==> vs[i] == m
    ensures Sum(vs) == |vs| as real * m
  {
    if |vs| > 0 {
      SumOfConstant(vs[1..], m);
      assert |vs| as real * m == m + |vs[1..]| as real * m;
    }
  }

  /** The variance of a non-empty list is 0 exactly when all its values are equal. */
  lemma VarianceZero(vs: seq<real>)
    requires |vs| > 0
    ensures Variance(vs) == 0.0 <==> Constant(vs)
  {
    var n := |vs| as real;
    var m := Sum(vs) / n;
    Quotient(SquaredDeviations(vs, m), n);
    SquaredDeviationsZero(vs, m);
    if Constant(vs) {
      SumOfConstant(vs, vs[0]);
      assert m == vs[0];
    }
  }

  /** The total importance is 0 exactly when the irrelevant list is non-empty and every kind is constant over it. */
  lemma TotalImportanceZero(c: Client)
    ensures TotalImportance(c) == 0.0 <==>
      |c.irrelevant| > 0 && forall k :: Constant(Values(c.irrelevant, k))
  {
    if |c.irrelevant| > 0 {
      forall k
        ensures Importance(c, k) == 0.0 <==> Constant(Values(c.irrelevant, k))
      {
        VarianceZero(Values(c.irrelevant, k));
        var relVar := Variance(Values(c.relevant, k));
        Quotient(Variance(Values(c.irrelevant, k)), relVar + Epsilon);
      }
      if forall k :: Constant(Values(c.irrelevant, k)) {
        assert Importance(c, Histogram) == 0.0 && Importance(c, Gabor) == 0.0 && Importance(c, Hu) == 0.0;
      }
    } else {
      Quotient(1.0, Variance(Values(c.relevant, Histogram)) + Epsilon);
      assert 0.0 < Importance(c, Histogram);
    }
  }

  predicate HasNaN(w: NumberWeights) {
    w.colorHistogram.NaN? || w.gaborFeatures.NaN? || w.huMoments.NaN?
  }

  /**
   * As written, the update yields NaN weights exactly when there is a relevant
   * example, there are irrelevant examples, and each kind takes a single value
   * among the irrelevant ones; one irrelevant example is enough.
   */
  lemma AsWrittenNaN(c: Client)
    ensures HasNaN(UpdateWeightsAsWritten(c)) <==>
      |c.relevant| > 0 && |c.irrelevant| > 0 && forall k :: Constant(Values(c.irrelevant, k))
  {
    TotalImportanceZero(c);
  }

  /** One relevant and one irrelevant example: the as-written update divides 0 by 0 for every kind. */
  lemma OneIrrelevantExampleGivesNaN(relevant: Example, irrelevant: Example, w: ClientWeights)
    ensures UpdateWeightsAsWritten(Client([relevant], [irrelevant], w)) == NumberWeights(NaN, NaN, NaN)
  {
    var c := Client([relevant], [irrelevant], w);
    assert forall k :: Constant(Values(c.irrelevant, k));
    TotalImportanceZero(c);
  }

  /** Where the as-written update is defined the guarded update agrees with it. */
  lemma UpdateAgreesWhenDefined(c: Client)
    requires !HasNaN(UpdateWeightsAsWritten(c))
    ensures AsNumbers(UpdateWeights(c).weights) == UpdateWeightsAsWritten(c)
  {
  }

  /** The first example, marked relevant, makes the three kinds equally important. */
  lemma FirstRelevantExample(e: Example)
    ensures AddFeedback(Init(), e, true).weights == ClientWeights(1.0 / 3.0, 1.0 / 3.0, 1.0 / 3.0)
  {
    var c := Init().(relevant := [e]);
    forall k
      ensures Importance(c, k) == 1000000.0
    {
      var vs := Values([e], k);
      assert Sum(vs) == vs[0];
      assert SquaredDeviations(vs, vs[0]) == 0.0;
      assert Variance(vs) == 0.0;
    }
    assert Init().(relevant := Init().relevant + [e]) == c;
    assert TotalImportance(c) == 3000000.0;
    assert 1000000.0 / 3000000.0 == 1.0 / 3.0;
  }
}

=== FILE: comparators.dfy ===
/**
 * The elementary comparators of the image controller: inverse Euclidean
 * distance (`euclideanDistance`), cosine similarity (`cosineSimilarity`) and
 * the cross-product mean over two dominant-colour lists
 * (`compareDominantColors`).
 */
module Comparators {
  import opened RealMath
  import opened Vectors

  /**
   * `euclideanDistance`: despite its name it returns the similarity
   * 1 / (1 + d) for the Euclidean distance d of the zero-padded vectors.
   */
  function InverseDistance(a: seq<real>, b: seq<real>, sqrt: real -> real): (r: real)
    requires IsSqrt(sqrt)
    ensures 0.0 < r <= 1.0
    ensures r == 1.0 <==> ZeroPadEqual(a, b)
  {
    SqDistZeroIff(a, b);
    SqrtZeroIff(sqrt, SqDist(a, b));
    Quotient(1.0, 1.0 + sqrt(SqDist(a, b)));
    1.0 / (1.0 + sqrt(SqDist(a, b)))
  }

  /** The Euclidean length of a vector. */
  function Magnitude(a: seq<real>, sqrt: real -> real): real {
    sqrt(Dot(a, a))
  }

  /**
   * `cosineSimilarity`: the dot product over the product of the magnitudes,
   * where PHP's `?:` replaces a zero product by 1.
   */
  function Cosine(a: seq<real>, b: seq<real>, sqrt: real -> real): (r: real)
    requires IsSqrt(sqrt)
    ensures -1.0 <= r <= 1.0
    ensures r == 0.0 <==> Dot(a, b) == 0.0
    ensures IsZero(a) || IsZero(b) ==> r == 0.0
  {
    var m := Magnitude(a, sqrt) * Magnitude(b, sqrt);
    CosineNumeratorBound(a, b, sqrt);
    DotWithZero(a, b);
    Quotient(Dot(a, b), if m == 0.0 then 1.0 else m);
    Dot(a, b) / (if m == 0.0 then 1.0 else m)
  }

  /** |a . b| is at most |a| |b|, and the dot product vanishes when that product does. */
  lemma CosineNumeratorBound(a: seq<real>, b: seq<real>, sqrt: real -> real)
    requires IsSqrt(sqrt)
    ensures Within(Dot(a, b), Magnitude(a, sqrt) * Magnitude(b, sqrt))
  {
    MagnitudeRoots(a, b, sqrt);
    MagnitudeProductBound(a, b, sqrt);
  }

  /** `RootsBound` instantiated with the dot products and the magnitudes. */
  lemma MagnitudeProductBound(a: seq<real>, b: seq<real>, sqrt: real -> real)
    requires RootsBounded(Dot(a, a), Dot(b, b), Dot(a, b), Magnitude(a, sqrt), Magnitude(b, sqrt))
    ensures Within(Dot(a, b), Magnitude(a, sqrt) * Magnitude(b, sqrt))
  {
    RootsBound(Dot(a, a), Dot(b, b), Dot(a, b), Magnitude(a, sqrt), Magnitude(b, sqrt));
  }

  /** The magnitudes are the roots of a . a and b . b, and Cauchy-Schwarz bounds (a . b)^2. */
  lemma MagnitudeRoots(a: seq<real>, b: seq<real>, sqrt: real -> real)
    requires IsSqrt(sqrt)
    ensures RootsBounded(Dot(a, a), Dot(b, b), Dot(a, b), Magnitude(a, sqrt), Magnitude(b, sqrt))
  {
    MagnitudeSquared(a, sqrt);
    MagnitudeSquared(b, sqrt);
    CauchySchwarz(a, b);
  }

  /** The magnitude is the non-negative root of a . a. */
  lemma MagnitudeSquared(a: seq<real>, sqrt: real -> real)
    requires IsSqrt(sqrt)
    ensures 0.0 <= Magnitude(a, sqrt)
    ensures Magnitude(a, sqrt) * Magnitude(a, sqrt) == Dot(a, a)
  {
    NormSquared(a);
  }

  /** The sum of the inverse distances from one query colour to every colour of the candidate. */
  function RowSum(qc: seq<real>, cs: seq<seq<real>>, sqrt: real -> real): (r: real)
    requires IsSqrt(sqrt)
    ensures 0.0 <= r <= |cs| as real
    ensures |cs| > 0 ==> 0.0 < r
    decreases |cs|
  {
    if |cs| == 0 then 0.0
    else InverseDistance(qc, cs[0], sqrt) + RowSum(qc, cs[1..], sqrt)
  }

  /** The sum of the inverse distances over the full cross product of the two colour lists. */
  function PairSum(qs: seq<seq<real>>, cs: seq<seq<real>>, sqrt: real -> real): (r: real)
    requires IsSqrt(sqrt)
    ensures 0.0 <= r <= (|qs| * |cs|) as real
    ensures |qs| > 0 && |cs| > 0 ==> 0.0 < r
    decreases |qs|
  {
    if |qs| == 0 then 0.0
    else
      MulSucc(|qs[1..]|, |cs|);
      RowSum(qs[0], cs, sqrt) + PairSum(qs[1..], cs, sqrt)
  }

  /**
   * `compareDominantColors`: the arithmetic mean of the inverse distances of all
   * |qs| * |cs| colour pairs. With an empty list PHP divides by zero and throws;
   * callers must exclude that case.
   */
  function CompareDominantColors(qs: seq<seq<real>>, cs: seq<seq<real>>, sqrt: real -> real): (r: real)
    requires IsSqrt(sqrt)
    requires |qs| > 0 && |cs| > 0
    ensures 0.0 < r <= 1.0
  {
    var pairs := (|qs| * |cs|) as real;
    Quotient(PairSum(qs, cs, sqrt), pairs);
    PairSum(qs, cs, sqrt) / pairs
  }

  /** A non-zero vector has cosine similarity 1 with itself. */
  lemma CosineSelf(a: seq<real>, sqrt: real -> real)
    requires IsSqrt(sqrt)
    requires !IsZero(a)
    ensures Cosine(a, a, sqrt) == 1.0
  {
    var A := Dot(a, a);
    NormSquared(a);
    assert A != 0.0;
    SqrtZeroIff(sqrt, A);
    assert Magnitude(a, sqrt) * Magnitude(a, sqrt) == A;
    Quotient(A, A);
  }

  /**
   * On the one-element vectors of the weighted histogram path the cosine
   * similarity is the product of the signs, so it is -1, 0 or 1.
   */
  lemma CosineOfSingletons(x: real, y: real, sqrt: real -> real)
    requires IsSqrt(sqrt)
    ensures Cosine([x], [y], sqrt) == Sign(x) * Sign(y)
    ensures Cosine([x], [y], sqrt) in {-1.0, 0.0, 1.0}
  {
    SingletonTerms(x, y, sqrt);
    SignQuotient(x, y);
  }

  /** On one-element vectors the dot product is x y and the magnitude product |x| |y|. */
  lemma SingletonTerms(x: real, y: real, sqrt: real -> real)
    requires IsSqrt(sqrt)
    ensures Dot([x], [y]) == x * y
    ensures Magnitude([x], sqrt) * Magnitude([y], sqrt) == Abs(x) * Abs(y)
  {
    assert Dot([x], [y]) == x * y by { DotUnfold([x], [y]); }
    assert Dot([x], [x]) == Square(x) by { DotUnfold([x], [x]); }
    assert Dot([y], [y]) == Square(y) by { DotUnfold([y], [y]); }
    SqrtOfSquare(sqrt, x);
    SqrtOfSquare(sqrt, y);
  }

  /** On one-element vectors the inverse distance is 1 / (1 + |x - y|). */
  lemma InverseDistanceOfSingletons(x: real, y: real, sqrt: real -> real)
    requires IsSqrt(sqrt)
    ensures InverseDistance([x], [y], sqrt) == 1.0 / (1.0 + Abs(x - y))
  {
    assert SqDist([x], [y]) == Square(x - y);
    SqrtOfSquare(sqrt, x - y);
  }

  /** The row sum reaches its maximum |cs| exactly when every candidate colour equals the query colour. */
  lemma {:induction false} RowSumFull(qc: seq<real>, cs: seq<seq<real>>, sqrt: real -> real)
    requires IsSqrt(sqrt)
    ensures RowSum(qc, cs, sqrt) == |cs| as real <==> AllEqual(qc, cs)
    decreases |cs|
  {
    if |cs| > 0 {
      RowSumFull(qc, cs[1..], sqrt);
      if AllEqual(qc, cs) {
        assert forall j :: 0 <= j < |cs| - 1 ==> ZeroPadEqual(qc, cs[1..][j]) by {
          forall j | 0 <= j < |cs| - 1
            ensures ZeroPadEqual(qc, cs[1..][j])
          {
            assert cs[1..][j] == cs[j + 1];
          }
        }
      }
      if RowSum(qc, cs, sqrt) == |cs| as real {
        forall j | 0 <= j < |cs|
          ensures ZeroPadEqual(qc, cs[j])
        {
          if j > 0 {
            assert cs[j] == cs[1..][j - 1];
          }
        }
      }
    }
  }

  /** The pair sum reaches |qs| |cs| exactly when every pair of colours is equal. */
  lemma {:induction false} PairSumFull(qs: seq<seq<real>>, cs: seq<seq<real>>, sqrt: real -> real)
    requires IsSqrt(sqrt)
    ensures PairSum(qs, cs, sqrt) == (|qs| * |cs|) as real <==> AllPairsEqual(qs, cs)
    decreases |qs|
  {
    if |qs| > 0 {
      var r, p := RowSum(qs[0], cs, sqrt), PairSum(qs[1..], cs, sqrt);
      assert PairSum(qs, cs, sqrt) == r + p;
      MulSucc(|qs[1..]|, |cs|);
      PairSumFull(qs[1..], cs, sqrt);
      RowSumFull(qs[0], cs, sqrt);
      AllPairsEqualUnfold(qs, cs);
    }
  }

  ghost predicate AllEqual(qc: seq<real>, cs: seq<seq<real>>) {
    forall j :: 0 <= j < |cs| ==> ZeroPadEqual(qc, cs[j])
  }

  ghost predicate AllPairsEqual(qs: seq<seq<real>>, cs: seq<seq<real>>) {
    forall i, j :: 0 <= i < |qs| && 0 <= j < |cs| ==> ZeroPadEqual(qs[i], cs[j])
  }

  lemma AllPairsEqualUnfold(qs: seq<seq<real>>, cs: seq<seq<real>>)
    requires |qs| > 0
    ensures AllPairsEqual(qs, cs) <==> AllEqual(qs[0], cs) && AllPairsEqual(qs[1..], cs)
  {
    if AllEqual(qs[0], cs) && AllPairsEqual(qs[1..], cs) {
      forall i, j | 0 <= i < |qs| && 0 <= j < |cs|
        ensures ZeroPadEqual(qs[i], cs[j])
      {
        if i > 0 {
          assert qs[i] == qs[1..][i - 1];
        }
      }
    }
  }

  /** The colour mean is 1 exactly when every query colour equals every candidate colour. */
  lemma DominantColorsMeanIsOne(qs: seq<seq<real>>, cs: seq<seq<real>>, sqrt: real -> real)
    requires IsSqrt(sqrt)
    requires |qs| > 0 && |cs| > 0
    ensures CompareDominantColors(qs, cs, sqrt) == 1.0
      <==> forall i, j :: 0 <= i < |qs| && 0 <= j < |cs| ==> ZeroPadEqual(qs[i], cs[j])
  {
    var pairs := (|qs| * |cs|) as real;
    PairSumFull(qs, cs, sqrt);
    Quotient(PairSum(qs, cs, sqrt), pairs);
  }

  /** With one colour on each side the mean is the inverse distance of the two colours. */
  lemma DominantColorsOfSingletons(q: seq<real>, c: seq<real>, sqrt: real -> real)
    requires IsSqrt(sqrt)
    ensures CompareDominantColors([q], [c], sqrt) == InverseDistance(q, c, sqrt)
  {
    assert [c][1..] == [];
    assert [q][1..] == [];
  }
}

=== FILE: descriptors.dfy ===
/**
 * The descriptor sets attached to the query and to every catalogued image,
 * and the weight configuration the relevance-feedback round produces.
 */
module Descriptors {
  import opened Wrappers

  /** The four descriptor kinds, in the order the controller visits them. */
  datatype Kind = DominantColors | ColorHistogram | GaborFeatures | HuMoments

  /** The kinds whose descriptor is a single vector of numbers. */
  type VectorKind = k: Kind | k != DominantColors witness ColorHistogram

  /**
   * A decoded descriptor set. A kind is `None` when its key is not set; the
   * dominant colours are a list of colour vectors, the other kinds flat vectors.
   */
  datatype Features = Features(
    dominantColors: Option<seq<seq<real>>>,
    colorHistogram: Option<seq<real>>,
    gaborFeatures: Option<seq<real>>,
    huMoments: Option<seq<real>>)
  {
    function Vector(k: VectorKind): Option<seq<real>> {
      if k == ColorHistogram then colorHistogram
      else if k == GaborFeatures then gaborFeatures
      else huMoments
    }

    predicate Has(k: Kind) {
      match k
      case DominantColors => dominantColors.Some?
      case _ => Vector(k).Some?
    }

    /** The same descriptor set with kind k unset. */
    function Without(k: Kind): (f: Features)
      ensures !f.Has(k)
      ensures forall k' :: k' != k ==> f.Has(k') == Has(k')
      ensures k != DominantColors ==> f.dominantColors == dominantColors
      ensures forall k': VectorKind :: k' != k ==> f.Vector(k') == Vector(k')
    {
      match k
      case DominantColors => this.(dominantColors := None)
      case ColorHistogram => this.(colorHistogram := None)
      case GaborFeatures => this.(gaborFeatures := None)
      case HuMoments => this.(huMoments := None)
    }
  }

  /**
   * The cached weight configuration. An empty sequence or map stands for a
   * kind without weights: PHP's `empty()` treats a missing key and `[]` alike.
   * Flat kinds carry one weight per vector index; the dominant colours carry,
   * per colour index, one weight per channel.
   */
  datatype Weights = Weights(
    dominantColors: map<nat, seq<real>>,
    colorHistogram: seq<real>,
    gaborFeatures: seq<real>,
    huMoments: seq<real>)
  {
    function Vector(k: VectorKind): seq<real> {
      if k == ColorHistogram then colorHistogram
      else if k == GaborFeatures then gaborFeatures
      else huMoments
    }
  }

  /** The configuration of a fresh session: every kind unweighted. */
  const NoWeights: Weights := Weights(map[], [], [], [])
}

=== FILE: ids.dfy ===
/**
 * The judged-id lists of the session and their merge,
 * `array_unique(array_merge($stored, $submitted))`: the stored ids followed by
 * the submitted ones, keeping the first occurrence of every id.
 */
module Ids {

  /** No id occurs twice. */
  predicate NoDup(s: seq<nat>) {
    forall i, j :: 0 <= i < j < |s| ==> s[i] != s[j]
  }

  /** The ids of s not in `seen`, each at its first occurrence, in order. */
  function DedupFrom(s: seq<nat>, seen: set<nat>): (r: seq<nat>)
    ensures NoDup(r)
    ensures forall x :: x in r <==> x in s && x !in seen
  {
    if |s| == 0 then []
    else if s[0] in seen then DedupFrom(s[1..], seen)
    else [s[0]] + DedupFrom(s[1..], seen + {s[0]})
  }

  /** `array_unique`: the first occurrence of every id, in order. */
  function Dedup(s: seq<nat>): seq<nat> {
    DedupFrom(s, {})
  }

  /** The merge of the stored ids with the submitted ones. */
  function MergeIds(stored: seq<nat>, submitted: seq<nat>): (r: seq<nat>)
    ensures NoDup(r)
    ensures forall x :: x in r <==> x in stored || x in submitted
  {
    Dedup(stored + submitted)
  }

  function Elements(s: seq<nat>): set<nat> {
    set x | x in s
  }

  /** A list's ids are its first id and the ids of the rest. */
  lemma ElementsCons(a: seq<nat>)
    requires |a| > 0
    ensures Elements(a) == {a[0]} + Elements(a[1..])
  {
    assert a == [a[0]] + a[1..];
  }

  /** Deduplicating a concatenation: the first part's first occurrences, then the second part's new ids. */
  lemma {:induction false} DedupFromAppend(a: seq<nat>, b: seq<nat>, seen: set<nat>)
    ensures DedupFrom(a + b, seen) == DedupFrom(a, seen) + DedupFrom(b, seen + Elements(a))
  {
    if |a| == 0 {
      assert a + b == b;
      assert seen + Elements(a) == seen;
    } else {
      assert (a + b)[0] == a[0] && (a + b)[1..] == a[1..] + b;
      var seen' := if a[0] in seen then seen else seen + {a[0]};
      DedupFromAppend(a[1..], b, seen');
      ElementsCons(a);
      assert seen' + Elements(a[1..]) == seen + Elements(a);
    }
  }

  /** A list without duplicates is left unchanged by removing the ids it does not meet. */
  lemma {:induction false} DedupFromNoDup(s: seq<nat>, seen: set<nat>)
    requires NoDup(s)
    requires forall x :: x in s ==> x !in seen
    ensures DedupFrom(s, seen) == s
  {
    if |s| > 0 {
      assert NoDup(s[1..]) by {
        forall i, j | 0 <= i < j < |s[1..]|
          ensures s[1..][i] != s[1..][j]
        {
          assert s[1..][i] == s[i + 1] && s[1..][j] == s[j + 1];
        }
      }
      forall x | x in s[1..]
        ensures x !in seen + {s[0]}
      {
        var j :| 0 <= j < |s[1..]| && s[1..][j] == x;
        assert s[j + 1] == x;
      }
      DedupFromNoDup(s[1..], seen + {s[0]});
    }
  }

  /** The merge never loses a stored id's position: the stored list is kept as its prefix. */
  lemma MergeKeepsStored(stored: seq<nat>, submitted: seq<nat>)
    requires NoDup(stored)
    ensures MergeIds(stored, submitted) == stored + DedupFrom(submitted, Elements(stored))
  {
    DedupFromAppend(stored, submitted, {});
    DedupFromNoDup(stored, {});
    assert {} + Elements(stored) == Elements(stored);
  }

  /** The merged list holds every stored and every submitted id, once each, and nothing else. */
  lemma MergeIsUnion(stored: seq<nat>, submitted: seq<nat>)
    ensures NoDup(MergeIds(stored, submitted))
    ensures Elements(MergeIds(stored, submitted)) == Elements(stored) + Elements(submitted)
  {
  }

  /** Deduplication keeps the set of ids. */
  lemma DedupElements(s: seq<nat>)
    ensures Elements(Dedup(s)) == Elements(s)
  {
    assert forall x :: x in Dedup(s) <==> x in s;
  }

  /** Nothing is left once every id has been seen. */
  lemma DedupFromSeen(s: seq<nat>, seen: set<nat>)
    requires Elements(s) <= seen
    ensures DedupFrom(s, seen) == []
  {
  }

  /** Merging in two rounds gives the same list as merging both submissions at once. */
  lemma MergeRounds(stored: seq<nat>, first: seq<nat>, second: seq<nat>)
    ensures MergeIds(MergeIds(stored, first), second) == MergeIds(stored, first + second)
  {
    var a := stored + first;
    var d := Dedup(a);
    var tail := DedupFrom(second, Elements(a));
    calc {
      MergeIds(d, second);
      DedupFrom(d + second, {});
      { DedupFromAppend(d, second, {}); }
      DedupFrom(d, {}) + DedupFrom(second, {} + Elements(d));
      { DedupFromNoDup(d, {}); DedupElements(a); assert {} + Elements(d) == Elements(a); }
      d + tail;
    }
    calc {
      MergeIds(stored, first + second);
      { assert stored + (first + second) == a + second; }
      DedupFrom(a + second, {});
      { DedupFromAppend(a, second, {}); assert {} + Elements(a) == Elements(a); }
      d + tail;
    }
  }

  /** Submitting the same ids again changes nothing. */
  lemma MergeIdempotent(stored: seq<nat>, submitted: seq<nat>)
    ensures MergeIds(MergeIds(stored, submitted), submitted) == MergeIds(stored, submitted)
  {
    var m := MergeIds(stored, submitted);
    MergeIsUnion(stored, submitted);
    MergeKeepsStored(m, submitted);
    DedupFromSeen(submitted, Elements(m));
    assert m + [] == m;
  }
}

=== FILE: ranking.dfy ===
/**
 * One search round over the catalogue: `searchImagesByFeatures` scores every
 * image that has descriptors, then `search` sorts the hits by similarity,
 * highest first, and keeps the first ten.
 */
module Ranking {
  import opened Wrappers
  import opened RealMath
  import opened Descriptors
  import opened Scorer
  import opened Catalog

  /** One scored image of the result list. */
  datatype Hit = Hit(id: nat, url: string, category: string, similarity: real)

  /** The number of results a search returns. */
  const TopK: nat := 10

  /** Every image with descriptors can be scored against the query under the weights. */
  predicate AllScorable(catalog: seq<Image>, q: Features, w: Weights) {
    forall i :: 0 <= i < |catalog| && catalog[i].features.Some? ==> ScoreDefined(q, catalog[i].features.value, w)
  }

  /** The catalogue can be scored image by image exactly when its first image can and the rest can. */
  lemma AllScorableUnfold(catalog: seq<Image>, q: Features, w: Weights)
    requires |catalog| > 0
    ensures AllScorable(catalog, q, w) <==>
      (catalog[0].features.Some? ==> ScoreDefined(q, catalog[0].features.value, w)) && AllScorable(catalog[1..], q, w)
  {
    if AllScorable(catalog, q, w) {
      forall i | 0 <= i < |catalog[1..]| && catalog[1..][i].features.Some?
        ensures ScoreDefined(q, catalog[1..][i].features.value, w)
      {
        assert catalog[1..][i] == catalog[i + 1];
      }
    }
    if (catalog[0].features.Some? ==> ScoreDefined(q, catalog[0].features.value, w)) && AllScorable(catalog[1..], q, w) {
      forall i | 0 <= i < |catalog| && catalog[i].features.Some?
        ensures ScoreDefined(q, catalog[i].features.value, w)
      {
        if i > 0 {
          assert catalog[i] == catalog[1..][i - 1];
        }
      }
    }
  }

  /** The number of catalogued images that have descriptors. */
  function Described(catalog: seq<Image>): nat {
    if |catalog| == 0 then 0
    else (if catalog[0].features.Some? then 1 else 0) + Described(catalog[1..])
  }

  /**
   * The error the scoring loop of `searchImagesByFeatures` raises, if any: the
   * error of the first image, in catalogue order, that has descriptors and
   * cannot be scored.
   */
  function CatalogFailure(catalog: seq<Image>, q: Features, w: Weights): (r: Option<ScoreError>)
    ensures r.None? <==> AllScorable(catalog, q, w)
    ensures r.Some? ==>
      exists i :: (0 <= i < |catalog| && catalog[i].features.Some?
                   && r == ScoreFailure(q, catalog[i].features.value, w) && AllScorable(catalog[..i], q, w))
  {
    if |catalog| == 0 then None
    else
      AllScorableUnfold(catalog, q, w);
      var img := catalog[0];
      if img.features.Some? && ScoreFailure(q, img.features.value, w).Some? then
        assert AllScorable(catalog[..0], q, w);
        ScoreFailure(q, img.features.value, w)
      else
        var r := CatalogFailure(catalog[1..], q, w);
        if r.Some? then
          var i :| 0 <= i < |catalog[1..]| && catalog[1..][i].features.Some?
            && r == ScoreFailure(q, catalog[1..][i].features.value, w) && AllScorable(catalog[1..][..i], q, w);
          AllScorableUnfold(catalog[..i + 1], q, w);
          assert catalog[..i + 1][1..] == catalog[1..][..i];
          assert catalog[1..][i] == catalog[i + 1];
          r
        else r
  }

  /** `searchImagesByFeatures`: one hit per image with descriptors, in catalogue order. */
  function ScoreAll(catalog: seq<Image>, q: Features, w: Weights, sqrt: real -> real): (hits: seq<Hit>)
    requires IsSqrt(sqrt)
    requires AllScorable(catalog, q, w)
    ensures |hits| == Described(catalog)
  {
    if |catalog| == 0 then []
    else
      var img := catalog[0];
      AllScorableUnfold(catalog, q, w);
      var rest := ScoreAll(catalog[1..], q, w, sqrt);
      if img.features.Some? then
        [Hit(img.id, img.url, img.category, ComputeSimilarity(q, img.features.value, w, sqrt))] + rest
      else rest
  }

  /** Similarities never increase along the list. */
  predicate SortedDesc(hits: seq<Hit>) {
    forall i, j :: 0 <= i < j < |hits| ==> hits[j].similarity <= hits[i].similarity
  }

  /**
   * Inserts h into a list sorted highest first, ahead of every hit that does
   * not score higher, so that among equal scores the inserted hit comes first.
   */
  function Insert(h: Hit, sorted: seq<Hit>): (r: seq<Hit>)
    requires SortedDesc(sorted)
    ensures SortedDesc(r)
    ensures multiset(r) == multiset(sorted) + multiset{h}
  {
    if |sorted| == 0 || sorted[0].similarity <= h.similarity then
      SortedCons(h, sorted);
      [h] + sorted
    else
      var rest := Insert(h, sorted[1..]);
      assert multiset(sorted) == multiset{sorted[0]} + multiset(sorted[1..]) by {
        assert sorted == [sorted[0]] + sorted[1..];
      }
      assert forall x :: x in rest ==> x.similarity <= sorted[0].similarity by {
        forall x | x in rest
          ensures x.similarity <= sorted[0].similarity
        {
          assert x in multiset(rest);
        }
      }
      SortedCons(sorted[0], rest);
      [sorted[0]] + rest
  }

  /** A hit scoring at least every hit of a sorted list can go in front of it. */
  lemma SortedCons(x: Hit, s: seq<Hit>)
    requires SortedDesc(s)
    requires |s| == 0 || s[0].similarity <= x.similarity || forall y :: y in s ==> y.similarity <= x.similarity
    ensures SortedDesc([x] + s)
  {
    var r := [x] + s;
    forall i, j | 0 <= i < j < |r|
      ensures r[j].similarity <= r[i].similarity
    {
      assert r[j] == s[j - 1];
      if i == 0 {
        assert s[j - 1] in s;
        if |s| > 0 && s[0].similarity <= x.similarity && j > 1 {
          assert s[j - 1].similarity <= s[0].similarity;
        }
      } else {
        assert r[i] == s[i - 1];
      }
    }
  }

  /**
   * `usort` with the comparator `$b['similarity'] <=> $a['similarity']`: highest
   * similarity first. PHP's sort is stable, so ties keep their catalogue order.
   */
  function SortDesc(hits: seq<Hit>): (r: seq<Hit>)
    ensures SortedDesc(r)
    ensures multiset(r) == multiset(hits)
  {
    if |hits| == 0 then []
    else
      assert hits == [hits[0]] + hits[1..];
      Insert(hits[0], SortDesc(hits[1..]))
  }

  /** The first `TopK` hits of the sorted list (`array_slice($results, 0, 10)`). */
  function TopResults(hits: seq<Hit>): (r: seq<Hit>)
    ensures |r| == Kept(|hits|)
    ensures SortedDesc(r)
    ensures multiset(r) <= multiset(hits)
  {
    var s := SortDesc(hits);
    assert |s| == |multiset(s)| == |multiset(hits)| == |hits|;
    assert s == s[..Kept(|hits|)] + s[Kept(|hits|)..];
    s[..Kept(|hits|)]
  }

  /** How many of n hits are kept. */
  function Kept(n: nat): nat {
    if n < TopK then n else TopK
  }

  /** The hit of a catalogued image that has descriptors. */
  function HitOf(img: Image, q: Features, w: Weights, sqrt: real -> real): Hit
    requires IsSqrt(sqrt)
    requires img.features.Some? && ScoreDefined(q, img.features.value, w)
  {
    Hit(img.id, img.url, img.category, ComputeSimilarity(q, img.features.value, w, sqrt))
  }

  /** A hit is produced exactly for the catalogued images with descriptors, with their score. */
  lemma {:induction false} ScoreAllMembers(catalog: seq<Image>, q: Features, w: Weights, sqrt: real -> real, h: Hit)
    requires IsSqrt(sqrt)
    requires AllScorable(catalog, q, w)
    ensures h in ScoreAll(catalog, q, w, sqrt) <==>
      exists i :: 0 <= i < |catalog| && catalog[i].features.Some? && h == HitOf(catalog[i], q, w, sqrt)
  {
    if |catalog| > 0 {
      var rest := catalog[1..];
      AllScorableUnfold(catalog, q, w);
      ScoreAllMembers(rest, q, w, sqrt, h);
      if h in ScoreAll(rest, q, w, sqrt) {
        var i :| 0 <= i < |rest| && rest[i].features.Some? && h == HitOf(rest[i], q, w, sqrt);
        assert catalog[i + 1] == rest[i];
      }
      if exists i :: 0 <= i < |catalog| && catalog[i].features.Some? && h == HitOf(catalog[i], q, w, sqrt) {
        var i :| 0 <= i < |catalog| && catalog[i].features.Some? && h == HitOf(catalog[i], q, w, sqrt);
        if i > 0 {
          assert rest[i - 1] == catalog[i];
        }
      }
    }
  }

  /** Every hit of the top results is the hit of a catalogued image with descriptors. */
  lemma TopResultsFromCatalog(catalog: seq<Image>, q: Features, w: Weights, sqrt: real -> real)
    requires IsSqrt(sqrt)
    requires AllScorable(catalog, q, w)
    ensures forall h :: h in TopResults(ScoreAll(catalog, q, w, sqrt)) ==>
      exists i :: 0 <= i < |catalog| && catalog[i].features.Some? && h == HitOf(catalog[i], q, w, sqrt)
  {
    var hits := ScoreAll(catalog, q, w, sqrt);
    forall h | h in TopResults(hits)
      ensures exists i :: 0 <= i < |catalog| && catalog[i].features.Some? && h == HitOf(catalog[i], q, w, sqrt)
    {
      assert h in multiset(TopResults(hits));
      assert h in multiset(hits);
      ScoreAllMembers(catalog, q, w, sqrt, h);
    }
  }

  /** In a list sorted highest first, everything after position n scores at most everything before it. */
  lemma SortedSplit(s: seq<Hit>, n: nat)
    requires SortedDesc(s) && n <= |s|
    ensures forall x, y :: x in s[n..] && y in s[..n] ==> x.similarity <= y.similarity
  {
    forall x, y | x in s[n..] && y in s[..n]
      ensures x.similarity <= y.similarity
    {
      var j :| 0 <= j < |s[n..]| && s[n..][j] == x;
      var i :| 0 <= i < |s[..n]| && s[..n][i] == y;
      assert s[n + j] == x && s[i] == y;
    }
  }

  /** Every hit the top ten leave out scores at most every hit they keep. */
  lemma TopResultsAreBest(hits: seq<Hit>)
    ensures forall x, y :: x in multiset(hits) - multiset(TopResults(hits)) && y in TopResults(hits) ==>
      x.similarity <= y.similarity
  {
    var s := SortDesc(hits);
    var n := Kept(|hits|);
    assert |s| == |multiset(s)| == |multiset(hits)| == |hits|;
    assert s == s[..n] + s[n..];
    assert multiset(hits) - multiset(s[..n]) == multiset(s[n..]);
    SortedSplit(s, n);
  }

  /** With at most ten hits nothing is cut: the result is a reordering of all of them. */
  lemma SmallResultKeepsAll(hits: seq<Hit>)
    requires |hits| <= TopK
    ensures multiset(TopResults(hits)) == multiset(hits)
  {
    var s := SortDesc(hits);
    assert |s| == |multiset(s)| == |multiset(hits)| == |hits|;
    assert s[..|hits|] == s;
  }

  /** The hits with similarity v, in list order. */
  function WithScore(hits: seq<Hit>, v: real): seq<Hit> {
    if |hits| == 0 then []
    else (if hits[0].similarity == v then [hits[0]] else []) + WithScore(hits[1..], v)
  }

  lemma {:induction false} InsertStable(h: Hit, sorted: seq<Hit>, v: real)
    requires SortedDesc(sorted)
    ensures WithScore(Insert(h, sorted), v) == (if h.similarity == v then [h] else []) + WithScore(sorted, v)
  {
    var hv: seq<Hit> := if h.similarity == v then [h] else [];
    if |sorted| == 0 || sorted[0].similarity <= h.similarity {
      var r := [h] + sorted;
      assert r[0] == h && r[1..] == sorted;
      assert WithScore(r, v) == hv + WithScore(sorted, v);
    } else {
      var x := sorted[0];
      var rest := Insert(h, sorted[1..]);
      var r := [x] + rest;
      assert r[0] == x && r[1..] == rest;
      var xv: seq<Hit> := if x.similarity == v then [x] else [];
      InsertStable(h, sorted[1..], v);
      calc {
        WithScore(r, v);
        xv + WithScore(rest, v);
        xv + (hv + WithScore(sorted[1..], v));
        { assert h.similarity == v ==> xv == []; }
        hv + (xv + WithScore(sorted[1..], v));
        hv + WithScore(sorted, v);
      }
    }
  }

  /**
   * The sort is stable: the hits of any one similarity appear in the result in
   * the order they had in the input.
   */
  lemma {:induction false} SortStable(hits: seq<Hit>, v: real)
    ensures WithScore(SortDesc(hits), v) == WithScore(hits, v)
  {
    if |hits| > 0 {
      SortStable(hits[1..], v);
      InsertStable(hits[0], SortDesc(hits[1..]), v);
    }
  }
}

=== FILE: real_math.dfy ===
/**
 * Real arithmetic used by the comparators. The source calls the platform's
 * floating-point `sqrt`; the model works over `real` and receives the square
 * root as a parameter, constrained by `IsSqrt` to return the non-negative root.
 */
module RealMath {

  /** `sqrt` returns the non-negative square root of every non-negative real. */
  ghost predicate IsSqrt(sqrt: real -> real) {
    forall x :: 0.0 <= x ==> 0.0 <= sqrt(x) && sqrt(x) * sqrt(x) == x
  }

  /** d lies in [-m, m] for a non-negative m. */
  predicate Within(d: real, m: real) {
    0.0 <= m && -m <= d <= m
  }

  function Abs(x: real): real {
    if x < 0.0 then -x else x
  }

  function Min(a: real, b: real): real {
    if a <= b then a else b
  }

  function Max(a: real, b: real): real {
    if a >= b then a else b
  }

  function Square(x: real): real {
    x * x
  }

  /** -1, 0 or 1 according to the sign of x. */
  function Sign(x: real): real {
    if x > 0.0 then 1.0 else if x < 0.0 then -1.0 else 0.0
  }

  /** The sum of a sequence of reals. */
  function Sum(s: seq<real>): real {
    if |s| == 0 then 0.0 else s[0] + Sum(s[1..])
  }

  ghost predicate NonNegative(s: seq<real>) {
    forall i :: 0 <= i < |s| ==> 0.0 <= s[i]
  }

  /** A sum of non-negative terms is non-negative. */
  lemma {:induction false} SumNonNegative(s: seq<real>)
    requires NonNegative(s)
    ensures 0.0 <= Sum(s)
  {
    if |s| > 0 {
      assert NonNegative(s[1..]);
      SumNonNegative(s[1..]);
    }
  }

  lemma MulSucc(a: int, b: int)
    ensures (a + 1) * b == a * b + b
  {
  }

  /** Products of positive reals are positive. */
  lemma MulPositive(x: real, y: real)
    requires 0.0 < x && 0.0 < y
    ensures 0.0 < x * y
  {
  }

  /** Products of non-negative reals are non-negative. */
  lemma MulNonNegative(x: real, y: real)
    requires 0.0 <= x && 0.0 <= y
    ensures 0.0 <= x * y
  {
    if x > 0.0 && y > 0.0 {
      MulPositive(x, y);
    }
  }

  /** A product is zero only if one factor is. */
  lemma MulZero(x: real, y: real)
    requires x * y == 0.0
    ensures x == 0.0 || y == 0.0
  {
    if x != 0.0 && y != 0.0 {
      if x > 0.0 && y > 0.0 {
        MulPositive(x, y);
      } else if x < 0.0 && y < 0.0 {
        MulPositive(-x, -y);
      } else if x < 0.0 {
        MulPositive(-x, y);
      } else {
        MulPositive(x, -y);
      }
    }
  }

  /** A square is non-negative, and positive unless its base is zero. */
  lemma SquarePositive(x: real)
    ensures 0.0 <= Square(x)
    ensures x != 0.0 ==> 0.0 < Square(x)
  {
    if x > 0.0 {
      calc {
        Square(x);
        x * x;
      > { MulPositive(x, x); }
        0.0;
      }
    } else if x < 0.0 {
      calc {
        Square(x);
        (-x) * (-x);
      > { MulPositive(-x, -x); }
        0.0;
      }
    }
  }

  /** m1 and m2 are the non-negative roots of A and B, and D^2 is at most A B. */
  predicate RootsBounded(A: real, B: real, D: real, m1: real, m2: real) {
    0.0 <= m1 && m1 * m1 == A && 0.0 <= m2 && m2 * m2 == B && D * D <= A * B
  }

  /** D^2 <= A B gives |D| <= m1 m2 for the roots m1, m2 of A and B. */
  lemma RootsBound(A: real, B: real, D: real, m1: real, m2: real)
    requires RootsBounded(A, B, D, m1, m2)
    ensures Within(D, m1 * m2)
  {
    var m := m1 * m2;
    calc {
      m * m;
      (m1 * m1) * (m2 * m2);
      A * B;
    }
    if m1 == 0.0 || m2 == 0.0 {
      assert m == 0.0;
    } else {
      MulPositive(m1, m2);
    }
    SquareBound(D, m);
  }

  lemma SqrtOfZero(sqrt: real -> real)
    requires IsSqrt(sqrt)
    ensures sqrt(0.0) == 0.0
  {
    var r := sqrt(0.0);
    assert r * r == 0.0;
    MulZero(r, r);
  }

  /** The root is zero exactly when its argument is. */
  lemma SqrtZeroIff(sqrt: real -> real, x: real)
    requires IsSqrt(sqrt)
    requires 0.0 <= x
    ensures sqrt(x) == 0.0 <==> x == 0.0
  {
    var r := sqrt(x);
    assert r * r == x;
    if x == 0.0 {
      SqrtOfZero(sqrt);
    }
  }

  /** The root of a square is the absolute value. */
  lemma SqrtOfSquare(sqrt: real -> real, x: real)
    requires IsSqrt(sqrt)
    ensures sqrt(Square(x)) == Abs(x)
  {
    var a := Abs(x);
    assert a * a == x * x;
    var r := sqrt(x * x);
    assert 0.0 <= r && r * r == x * x;
    assert (r - a) * (r + a) == r * r - a * a == 0.0;
    MulZero(r - a, r + a);
  }

  lemma SquareGrows(e: real, m: real)
    requires 0.0 <= m < e
    ensures m * m < e * e
  {
    var p, q := e - m, e + m;
    MulPositive(p, q);
    assert p * q == e * e - m * m;
  }

  /** A non-negative number bounded in square by the square of a non-negative bound is bounded by it. */
  lemma SquareBound(d: real, m: real)
    requires 0.0 <= m
    requires d * d <= m * m
    ensures -m <= d <= m
  {
    if d > m {
      SquareGrows(d, m);
    }
    if d < -m {
      SquareGrows(-d, m);
    }
  }

  /** Dividing by a non-zero n and multiplying back by n is the identity. */
  lemma DivMul(p: real, n: real)
    requires n != 0.0
    ensures p / n * n == p
  {
  }

  /** x y divided by |x| |y| (by 1 when that is zero) is the product of the signs. */
  lemma SignQuotient(x: real, y: real)
    ensures var m := Abs(x) * Abs(y); x * y / (if m == 0.0 then 1.0 else m) == Sign(x) * Sign(y)
    ensures Sign(x) * Sign(y) in {-1.0, 0.0, 1.0}
  {
    var m := Abs(x) * Abs(y);
    if x == 0.0 || y == 0.0 {
      assert m == 0.0;
      assert x * y == 0.0;
    } else {
      MulPositive(Abs(x), Abs(y));
      if (x > 0.0) == (y > 0.0) {
        assert x * y == m;
      } else {
        assert x * y == -m;
      }
      Quotient(x * y, m);
    }
  }

  /** Facts about a quotient p / n with a positive divisor. */
  lemma Quotient(p: real, n: real)
    requires 0.0 < n
    ensures p / n == 0.0 <==> p == 0.0
    ensures 0.0 < p ==> 0.0 < p / n
    ensures 0.0 <= p ==> 0.0 <= p / n
    ensures p <= n ==> p / n <= 1.0
    ensures -n <= p ==> -1.0 <= p / n
    ensures p / n == 1.0 <==> p == n
    ensures p == -n ==> p / n == -1.0
  {
    var q := p / n;
    assert q * n == p;
    if q == 0.0 {
      assert p == 0.0;
    }
    if 0.0 < p && q <= 0.0 {
      if q < 0.0 {
        MulPositive(-q, n);
      }
    }
    if p <= n && q > 1.0 {
      MulPositive(q - 1.0, n);
    }
    if -n <= p && q < -1.0 {
      MulPositive(-1.0 - q, n);
    }
  }
}

=== FILE: scorer.dfy ===
/**
 * `computeSimilarity`: the score of one candidate against the query, summed
 * over the four descriptor kinds under the session's weight configuration.
 */
module Scorer {
  import opened Wrappers
  import opened RealMath
  import opened Vectors
  import opened Comparators
  import opened Descriptors

  /** The unweighted comparator of a flat kind: cosine for the histogram, inverse distance otherwise. */
  function Compare(k: VectorKind, a: seq<real>, b: seq<real>, sqrt: real -> real): (r: real)
    requires IsSqrt(sqrt)
    ensures -1.0 <= r <= 1.0
    ensures k != ColorHistogram ==> 0.0 < r
  {
    if k == ColorHistogram then Cosine(a, b, sqrt) else InverseDistance(a, b, sqrt)
  }

  /** A non-negative weight scales a value in [-1, 1] into [-weight, weight], keeping its sign. */
  lemma ScaledBound(w: real, x: real)
    requires 0.0 <= w && -1.0 <= x <= 1.0
    ensures -w <= w * x <= w
    ensures 0.0 <= x ==> 0.0 <= w * x
  {
    if w > 0.0 {
      if x < 1.0 { MulPositive(w, 1.0 - x); }
      if x > -1.0 { MulPositive(w, x + 1.0); }
      if x > 0.0 { MulPositive(w, x); }
    }
  }

  /**
   * The per-component similarities of the weighted path: query component i is
   * compared on its own, as a one-element vector, with the candidate's
   * component i, which must exist (see `VectorDefined`).
   */
  function Similarities(k: VectorKind, q: seq<real>, c: seq<real>, sqrt: real -> real): (xs: seq<real>)
    requires IsSqrt(sqrt)
    requires |q| <= |c|
    ensures |xs| == |q|
    ensures forall i :: 0 <= i < |xs| ==> -1.0 <= xs[i] <= 1.0
    ensures k != ColorHistogram ==> forall i :: 0 <= i < |xs| ==> 0.0 < xs[i]
    decreases |q|
  {
    if |q| == 0 then []
    else [Compare(k, [q[0]], [c[0]], sqrt)] + Similarities(k, q[1..], c[1..], sqrt)
  }

  /** The sum of the similarities scaled by their weights. */
  function Weighted(w: seq<real>, xs: seq<real>): real
    requires |w| == |xs|
  {
    if |w| == 0 then 0.0 else w[0] * xs[0] + Weighted(w[1..], xs[1..])
  }

  /** The weighted path of a flat kind. */
  function WeightedSum(k: VectorKind, q: seq<real>, c: seq<real>, w: seq<real>, sqrt: real -> real): real
    requires IsSqrt(sqrt)
    requires |w| == |q| <= |c|
  {
    Weighted(w, Similarities(k, q, c, sqrt))
  }

  /** Similarity i is the comparator applied to component i of the query and of the candidate. */
  lemma {:induction false} SimilaritiesAt(k: VectorKind, q: seq<real>, c: seq<real>, sqrt: real -> real, i: nat)
    requires IsSqrt(sqrt)
    requires i < |q| <= |c|
    ensures Similarities(k, q, c, sqrt)[i] == Compare(k, [q[i]], [c[i]], sqrt)
    decreases i
  {
    if i > 0 {
      SimilaritiesAt(k, q[1..], c[1..], sqrt, i - 1);
      assert q[1..][i - 1] == q[i] && c[1..][i - 1] == c[i];
    }
  }

  /** One term of a weighted sum: adding w x with x in [-1, 1] widens the bound by w. */
  lemma WeightedStep(w: real, x: real, rest: real, total: real)
    requires 0.0 <= w && -1.0 <= x <= 1.0
    requires -total <= rest <= total
    ensures -(w + total) <= w * x + rest <= w + total
    ensures 0.0 <= x && 0.0 <= rest ==> 0.0 <= w * x + rest
  {
    ScaledBound(w, x);
  }

  /** The weighted sum from index i on, by index. */
  function IndexSum(w: seq<real>, xs: seq<real>, i: nat): real
    requires |w| == |xs| && i <= |w|
    decreases |w| - i
  {
    if i == |w| then 0.0 else w[i] * xs[i] + IndexSum(w, xs, i + 1)
  }

  lemma {:induction false} WeightedSuffix(w: seq<real>, xs: seq<real>, i: nat)
    requires |w| == |xs| && i <= |w|
    ensures Weighted(w[i..], xs[i..]) == IndexSum(w, xs, i)
    decreases |w| - i
  {
    if i < |w| {
      WeightedSuffix(w, xs, i + 1);
      assert w[i..][1..] == w[i + 1..] && xs[i..][1..] == xs[i + 1..];
    }
  }

  /**
   * The weighted path is the source's loop over the query indices: the sum of
   * weight i times similarity i, where similarity i compares query component
   * i with candidate component i as one-element vectors.
   */
  lemma WeightedSumIsLoop(k: VectorKind, q: seq<real>, c: seq<real>, w: seq<real>, sqrt: real -> real)
    requires IsSqrt(sqrt)
    requires |w| == |q| <= |c|
    ensures WeightedSum(k, q, c, w, sqrt) == IndexSum(w, Similarities(k, q, c, sqrt), 0)
    ensures forall i :: 0 <= i < |q| ==> Similarities(k, q, c, sqrt)[i] == Compare(k, [q[i]], [c[i]], sqrt)
  {
    var xs := Similarities(k, q, c, sqrt);
    WeightedSuffix(w, xs, 0);
    assert w[0..] == w && xs[0..] == xs;
    forall i | 0 <= i < |q|
      ensures xs[i] == Compare(k, [q[i]], [c[i]], sqrt)
    {
      SimilaritiesAt(k, q, c, sqrt, i);
    }
  }

  /** Non-negative weights keep a weighted sum of values in [-1, 1] within the weights' total. */
  lemma {:induction false} WeightedBound(w: seq<real>, xs: seq<real>)
    requires |w| == |xs|
    requires NonNegative(w)
    requires forall i :: 0 <= i < |xs| ==> -1.0 <= xs[i] <= 1.0
    ensures -Sum(w) <= Weighted(w, xs) <= Sum(w)
    ensures NonNegative(xs) ==> 0.0 <= Weighted(w, xs)
  {
    if |w| > 0 {
      assert NonNegative(w[1..]);
      assert forall i :: 0 <= i < |xs[1..]| ==> -1.0 <= xs[1..][i] <= 1.0;
      assert NonNegative(xs) ==> NonNegative(xs[1..]);
      WeightedBound(w[1..], xs[1..]);
      var rest, total := Weighted(w[1..], xs[1..]), Sum(w[1..]);
      assert Weighted(w, xs) == w[0] * xs[0] + rest;
      assert Sum(w) == w[0] + total;
      WeightedStep(w[0], xs[0], rest, total);
    }
  }

  /** Non-negative weights keep the weighted path within their total, and non-negative for the distance kinds. */
  lemma WeightedSumBound(k: VectorKind, q: seq<real>, c: seq<real>, w: seq<real>, sqrt: real -> real)
    requires IsSqrt(sqrt)
    requires |w| == |q| <= |c|
    requires NonNegative(w)
    ensures -Sum(w) <= WeightedSum(k, q, c, w, sqrt) <= Sum(w)
    ensures k != ColorHistogram ==> 0.0 <= WeightedSum(k, q, c, w, sqrt)
  {
    var xs := Similarities(k, q, c, sqrt);
    WeightedBound(w, xs);
  }

  /** The weighted path of a flat kind is taken: both sides carry it and there is one weight per query component. */
  predicate WeightedPath(q: Option<seq<real>>, c: Option<seq<real>>, w: seq<real>) {
    q.Some? && c.Some? && |w| != 0 && |w| == |q.value|
  }

  /**
   * A flat kind can be scored: the weighted path reads candidate component i
   * for every query index i, and reading a key the candidate lacks raises an
   * error that fails the request.
   */
  predicate VectorDefined(q: Option<seq<real>>, c: Option<seq<real>>, w: seq<real>) {
    WeightedPath(q, c, w) ==> |q.value| <= |c.value|
  }

  /**
   * The contribution of a flat kind: nothing unless both sides carry it; the
   * unweighted comparator when no weights are configured; the weighted sum when
   * the weights match the query vector in length; nothing otherwise.
   */
  function VectorContribution(k: VectorKind, q: Option<seq<real>>, c: Option<seq<real>>, w: seq<real>, sqrt: real -> real): real
    requires IsSqrt(sqrt)
    requires VectorDefined(q, c, w)
  {
    if q.None? || c.None? then 0.0
    else if |w| == 0 then Compare(k, q.value, c.value, sqrt)
    else if |w| == |q.value| then WeightedSum(k, q.value, c.value, w, sqrt)
    else 0.0
  }

  /** The dominant colours are compared: both sides carry them and the weights are absent or match in count. */
  predicate ColoursCompared(q: Option<seq<seq<real>>>, c: Option<seq<seq<real>>>, w: map<nat, seq<real>>) {
    q.Some? && c.Some? && (|w| == 0 || |w| == |q.value|)
  }

  /** The dominant colours can be scored: PHP throws a division by zero when a compared colour list is empty. */
  predicate ColoursDefined(q: Option<seq<seq<real>>>, c: Option<seq<seq<real>>>, w: map<nat, seq<real>>) {
    ColoursCompared(q, c, w) ==> |q.value| > 0 && |c.value| > 0
  }

  /** The score is defined: no kind the controller visits raises an error. */
  predicate ScoreDefined(q: Features, c: Features, w: Weights) {
    && ColoursDefined(q.dominantColors, c.dominantColors, w.dominantColors)
    && VectorDefined(q.colorHistogram, c.colorHistogram, w.colorHistogram)
    && VectorDefined(q.gaborFeatures, c.gaborFeatures, w.gaborFeatures)
    && VectorDefined(q.huMoments, c.huMoments, w.huMoments)
  }

  /** Why scoring a candidate fails: a division by zero, or a read of a component the candidate lacks. */
  datatype ScoreError = DivisionByZero | UndefinedKey

  /**
   * The error scoring the candidate raises, if any. The controller visits the
   * dominant colours first, so an empty colour list is reported ahead of a
   * candidate vector shorter than the query's.
   */
  function ScoreFailure(q: Features, c: Features, w: Weights): (r: Option<ScoreError>)
    ensures r.None? <==> ScoreDefined(q, c, w)
    ensures r == Some(DivisionByZero) <==> !ColoursDefined(q.dominantColors, c.dominantColors, w.dominantColors)
    ensures r == Some(UndefinedKey) <==>
      && ColoursDefined(q.dominantColors, c.dominantColors, w.dominantColors)
      && exists k: VectorKind :: WeightedPath(q.Vector(k), c.Vector(k), w.Vector(k)) && |c.Vector(k).value| < |q.Vector(k).value|
  {
    if !ColoursDefined(q.dominantColors, c.dominantColors, w.dominantColors) then Some(DivisionByZero)
    else if !VectorDefined(q.colorHistogram, c.colorHistogram, w.colorHistogram) then
      assert WeightedPath(q.Vector(ColorHistogram), c.Vector(ColorHistogram), w.Vector(ColorHistogram));
      Some(UndefinedKey)
    else if !VectorDefined(q.gaborFeatures, c.gaborFeatures, w.gaborFeatures) then
      assert WeightedPath(q.Vector(GaborFeatures), c.Vector(GaborFeatures), w.Vector(GaborFeatures));
      Some(UndefinedKey)
    else if !VectorDefined(q.huMoments, c.huMoments, w.huMoments) then
      assert WeightedPath(q.Vector(HuMoments), c.Vector(HuMoments), w.Vector(HuMoments));
      Some(UndefinedKey)
    else None
  }

  /**
   * Gabor features [1, 2] weighted [0.5, 0.5] against a candidate carrying only
   * [1]: the weighted loop reads the candidate's component 1, which is missing.
   */
  lemma ShortCandidateExample()
    ensures ScoreFailure(Features(None, None, Some([1.0, 2.0]), None), Features(None, None, Some([1.0]), None),
                         Weights(map[], [], [0.5, 0.5], [])) == Some(UndefinedKey)
  {
  }

  /** The contribution of the dominant colours: always the unweighted mean when compared at all. */
  function ColourContribution(q: Option<seq<seq<real>>>, c: Option<seq<seq<real>>>, w: map<nat, seq<real>>, sqrt: real -> real): real
    requires IsSqrt(sqrt)
    requires ColoursDefined(q, c, w)
  {
    if ColoursCompared(q, c, w) then CompareDominantColors(q.value, c.value, sqrt) else 0.0
  }

  /**
   * `computeSimilarity`. Without weights every kind contributes at most 1 and
   * only the histogram's cosine can be negative, so the score lies in [-1, 4].
   */
  function ComputeSimilarity(q: Features, c: Features, w: Weights, sqrt: real -> real): (r: real)
    requires IsSqrt(sqrt)
    requires ScoreDefined(q, c, w)
    ensures w == NoWeights ==> -1.0 <= r <= 4.0
    ensures w == NoWeights && (q.colorHistogram.None? || c.colorHistogram.None?) ==> 0.0 <= r
  {
    ColourContribution(q.dominantColors, c.dominantColors, w.dominantColors, sqrt)
    + VectorContribution(ColorHistogram, q.colorHistogram, c.colorHistogram, w.colorHistogram, sqrt)
    + VectorContribution(GaborFeatures, q.gaborFeatures, c.gaborFeatures, w.gaborFeatures, sqrt)
    + VectorContribution(HuMoments, q.huMoments, c.huMoments, w.huMoments, sqrt)
  }

  /**
   * The per-component similarities in closed form: the product of the signs for
   * the histogram, and 1 / (1 + |q_i - c_i|) for the distance kinds.
   */
  lemma SimilaritiesClosedForm(k: VectorKind, q: seq<real>, c: seq<real>, sqrt: real -> real, i: nat)
    requires IsSqrt(sqrt)
    requires i < |q| <= |c|
    ensures k == ColorHistogram ==> Similarities(k, q, c, sqrt)[i] == Sign(q[i]) * Sign(c[i])
    ensures k != ColorHistogram ==> Similarities(k, q, c, sqrt)[i] == 1.0 / (1.0 + Abs(q[i] - c[i]))
  {
    SimilaritiesAt(k, q, c, sqrt, i);
    if k == ColorHistogram {
      CosineOfSingletons(q[i], c[i], sqrt);
    } else {
      InverseDistanceOfSingletons(q[i], c[i], sqrt);
    }
  }

  /** What a flat kind can contribute at most in absolute value: 1 unweighted, the weights' total when weighted. */
  function Budget(w: seq<real>): real {
    if |w| == 0 then 1.0 else Sum(w)
  }

  /** Non-negative weights bound the contribution of a flat kind by its budget; only the histogram can go negative. */
  lemma VectorContributionBound(k: VectorKind, q: Option<seq<real>>, c: Option<seq<real>>, w: seq<real>, sqrt: real -> real)
    requires IsSqrt(sqrt)
    requires VectorDefined(q, c, w)
    requires NonNegative(w)
    ensures -Budget(w) <= VectorContribution(k, q, c, w, sqrt) <= Budget(w)
    ensures k != ColorHistogram ==> 0.0 <= VectorContribution(k, q, c, w, sqrt)
  {
    SumNonNegative(w);
    if q.Some? && c.Some? && |w| != 0 && |w| == |q.value| {
      WeightedSumBound(k, q.value, c.value, w, sqrt);
    }
  }

  /**
   * Under non-negative weights the score lies between minus the histogram's
   * budget and 1 (the colour mean) plus the three flat budgets.
   */
  lemma ScoreBound(q: Features, c: Features, w: Weights, sqrt: real -> real)
    requires IsSqrt(sqrt)
    requires ScoreDefined(q, c, w)
    requires NonNegative(w.colorHistogram) && NonNegative(w.gaborFeatures) && NonNegative(w.huMoments)
    ensures -Budget(w.colorHistogram) <= ComputeSimilarity(q, c, w, sqrt)
    ensures ComputeSimilarity(q, c, w, sqrt)
      <= 1.0 + Budget(w.colorHistogram) + Budget(w.gaborFeatures) + Budget(w.huMoments)
  {
    VectorContributionBound(ColorHistogram, q.colorHistogram, c.colorHistogram, w.colorHistogram, sqrt);
    VectorContributionBound(GaborFeatures, q.gaborFeatures, c.gaborFeatures, w.gaborFeatures, sqrt);
    VectorContributionBound(HuMoments, q.huMoments, c.huMoments, w.huMoments, sqrt);
  }

  /** A kind missing on either side contributes nothing: the score is that of both sets without it. */
  lemma MissingKindIsSkipped(q: Features, c: Features, w: Weights, k: Kind, sqrt: real -> real)
    requires IsSqrt(sqrt)
    requires ScoreDefined(q, c, w)
    requires !q.Has(k) || !c.Has(k)
    ensures ScoreDefined(q.Without(k), c.Without(k), w)
    ensures ComputeSimilarity(q, c, w, sqrt) == ComputeSimilarity(q.Without(k), c.Without(k), w, sqrt)
  {
  }

  /**
   * A flat kind whose configured weights differ in length from the query's
   * vector is skipped: the score is that of the query without the kind.
   */
  lemma MismatchedWeightsAreSkipped(q: Features, c: Features, w: Weights, k: VectorKind, sqrt: real -> real)
    requires IsSqrt(sqrt)
    requires ScoreDefined(q, c, w)
    requires q.Vector(k).Some? && |w.Vector(k)| != 0 && |w.Vector(k)| != |q.Vector(k).value|
    ensures ScoreDefined(q.Without(k), c, w)
    ensures ComputeSimilarity(q, c, w, sqrt) == ComputeSimilarity(q.Without(k), c, w, sqrt)
  {
  }

  /** The same for the dominant colours: a colour-weight count other than the query's colour count skips the kind. */
  lemma MismatchedColourWeightsAreSkipped(q: Features, c: Features, w: Weights, sqrt: real -> real)
    requires IsSqrt(sqrt)
    requires ScoreDefined(q, c, w)
    requires q.dominantColors.Some?
    requires |w.dominantColors| != 0 && |w.dominantColors| != |q.dominantColors.value|
    ensures ScoreDefined(q.Without(DominantColors), c, w)
    ensures ComputeSimilarity(q, c, w, sqrt) == ComputeSimilarity(q.Without(DominantColors), c, w, sqrt)
  {
  }

  /**
   * Colour weights whose count matches the query's colour count are not
   * applied: the score is the one computed without any colour weights.
   */
  lemma ColourWeightValuesAreIgnored(q: Features, c: Features, w: Weights, sqrt: real -> real)
    requires IsSqrt(sqrt)
    requires ScoreDefined(q, c, w)
    requires q.dominantColors.Some? && |w.dominantColors| == |q.dominantColors.value|
    ensures ScoreDefined(q, c, w.(dominantColors := map[]))
    ensures ComputeSimilarity(q, c, w, sqrt) == ComputeSimilarity(q, c, w.(dominantColors := map[]), sqrt)
  {
  }

  /** The number of kinds a descriptor set carries. */
  function PresentKinds(f: Features): nat {
    (if f.dominantColors.Some? then 1 else 0)
    + (if f.colorHistogram.Some? then 1 else 0)
    + (if f.gaborFeatures.Some? then 1 else 0)
    + (if f.huMoments.Some? then 1 else 0)
  }

  /**
   * Unweighted, an image compared with itself scores one per kind it carries,
   * provided its histogram is not all zeros and its colour list is a single colour.
   */
  lemma SelfScore(f: Features, sqrt: real -> real)
    requires IsSqrt(sqrt)
    requires f.dominantColors.Some? ==> |f.dominantColors.value| == 1
    requires f.colorHistogram.Some? ==> !IsZero(f.colorHistogram.value)
    ensures ScoreDefined(f, f, NoWeights)
    ensures ComputeSimilarity(f, f, NoWeights, sqrt) == PresentKinds(f) as real
  {
    if f.dominantColors.Some? {
      var qs := f.dominantColors.value;
      assert ZeroPadEqual(qs[0], qs[0]);
      DominantColorsMeanIsOne(qs, qs, sqrt);
    }
    if f.colorHistogram.Some? {
      CosineSelf(f.colorHistogram.value, sqrt);
    }
    if f.gaborFeatures.Some? {
      var v := f.gaborFeatures.value;
      assert ZeroPadEqual(v, v);
    }
    if f.huMoments.Some? {
      var v := f.huMoments.value;
      assert ZeroPadEqual(v, v);
    }
  }

  /** An image whose colour list holds two different colours scores below 1 on the colours against itself. */
  lemma ColourSelfScoreBelowOne(qs: seq<seq<real>>, i: nat, j: nat, sqrt: real -> real)
    requires IsSqrt(sqrt)
    requires i < |qs| && j < |qs| && !ZeroPadEqual(qs[i], qs[j])
    ensures CompareDominantColors(qs, qs, sqrt) < 1.0
  {
    DominantColorsMeanIsOne(qs, qs, sqrt);
  }

  /** Identical Hu moments [1, 2, 3] on both sides, nothing else, no weights: the score is 1. */
  lemma HuMomentsExample(sqrt: real -> real)
    requires IsSqrt(sqrt)
    ensures ComputeSimilarity(Features(None, None, None, Some([1.0, 2.0, 3.0])),
                              Features(None, None, None, Some([1.0, 2.0, 3.0])), NoWeights, sqrt) == 1.0
  {
    SelfScore(Features(None, None, None, Some([1.0, 2.0, 3.0])), sqrt);
  }
}

=== FILE: session.dfy ===
/**
 * The feedback session and the two controller actions that use it: `search`
 * (lines 80-129 of the controller) and `relevanceFeedback` (lines 137-184).
 *
 * The session lives in four cache keys: the query image's hash, the weight
 * configuration and the two judged-id lists. A key that is missing or has
 * expired reads as its default (null, [], [], []).
 */
module Session {
  import opened Wrappers
  import opened RealMath
  import opened Descriptors
  import opened Scorer
  import opened BayesianWeights
  import opened Catalog
  import opened Ranking
  import opened Ids

  datatype Session = Session(
    hash: Option<string>,
    weights: Weights,
    relevantIds: seq<nat>,
    irrelevantIds: seq<nat>)

  /** The four cache keys. */
  datatype CacheKey = QueryHashKey | WeightsKey | RelevantIdsKey | IrrelevantIdsKey

  /** What one cache key holds. */
  datatype CacheValue = HashValue(hash: Option<string>) | WeightsValue(weights: Weights) | IdsValue(ids: seq<nat>)

  /** `Cache::get(key, default)` on a session whose keys are all present. */
  function Read(s: Session, key: CacheKey): CacheValue {
    match key
    case QueryHashKey => HashValue(s.hash)
    case WeightsKey => WeightsValue(s.weights)
    case RelevantIdsKey => IdsValue(s.relevantIds)
    case IrrelevantIdsKey => IdsValue(s.irrelevantIds)
  }

  /** The default each read supplies for a missing key: null, [], [] and []. */
  function Default(key: CacheKey): CacheValue {
    match key
    case QueryHashKey => HashValue(None)
    case WeightsKey => WeightsValue(NoWeights)
    case RelevantIdsKey => IdsValue([])
    case IrrelevantIdsKey => IdsValue([])
  }

  /**
   * One key expires after its time to live: reading it yields its default, and
   * the other keys read as before. Only an expired hash makes the next search
   * with the same image start over.
   */
  function Expire(s: Session, key: CacheKey): (r: Session)
    ensures Read(r, key) == Default(key)
    ensures forall other :: other != key ==> Read(r, other) == Read(s, other)
    ensures r == s <==> Read(s, key) == Default(key)
    ensures forall hash :: BeginSearch(r, hash) == r <==> key != QueryHashKey && s.hash == Some(hash)
  {
    match key
    case QueryHashKey => s.(hash := None)
    case WeightsKey => s.(weights := NoWeights)
    case RelevantIdsKey => s.(relevantIds := [])
    case IrrelevantIdsKey => s.(irrelevantIds := [])
  }

  /**
   * The start of `search`: a query image whose hash differs from the stored one
   * (or when none is stored) resets the weights and both id lists and stores the
   * new hash; the same image again leaves the session as it is.
   */
  function BeginSearch(s: Session, hash: string): (r: Session)
    ensures r.hash == Some(hash)
    ensures s.hash == Some(hash) ==> r == s
    ensures s.hash != Some(hash) ==> r == Session(Some(hash), NoWeights, [], [])
  {
    if s.hash != Some(hash) then Session(Some(hash), NoWeights, [], []) else s
  }

  datatype SearchError =
    | ExtractionFailed              // the extraction service returned nothing (HTTP 500)
    | ScoringFailed(cause: ScoreError)  // scoring a catalogued image raised an error

  /**
   * `search`. The session is reset (or kept) before extraction, so it changes
   * even when the search then fails. `extracted` is the descriptor set the
   * extraction service returned for the uploaded image, `None` on failure.
   * A success holds the ten best-scoring catalogued images with descriptors,
   * or all of them when there are fewer: each hit at most as often as it is
   * scored, and no hit left out scores above a hit kept.
   */
  function Search(s: Session, hash: string, extracted: Option<Features>, catalog: seq<Image>, sqrt: real -> real)
    : (out: (Session, Result<seq<Hit>, SearchError>))
    requires IsSqrt(sqrt)
    ensures out.0 == BeginSearch(s, hash)
    ensures out.1.Failure? && out.1.error == ExtractionFailed <==> extracted.None?
    ensures out.1.Failure? && out.1.error.ScoringFailed? <==>
      extracted.Some? && !AllScorable(catalog, extracted.value, out.0.weights)
    ensures out.1.Failure? && out.1.error.ScoringFailed? ==>
      && extracted.Some?
      && exists i :: (0 <= i < |catalog| && catalog[i].features.Some?
                      && ScoreFailure(extracted.value, catalog[i].features.value, out.0.weights) == Some(out.1.error.cause))
    ensures out.1.Success? ==>
      && extracted.Some? && AllScorable(catalog, extracted.value, out.0.weights)
      && |out.1.value| == Kept(Described(catalog))
      && SortedDesc(out.1.value)
      && (forall h :: h in out.1.value ==>
           exists i :: 0 <= i < |catalog| && catalog[i].features.Some? && h == HitOf(catalog[i], extracted.value, out.0.weights, sqrt))
      && multiset(out.1.value) <= multiset(ScoreAll(catalog, extracted.value, out.0.weights, sqrt))
      && (forall x, y ::
            x in multiset(ScoreAll(catalog, extracted.value, out.0.weights, sqrt)) - multiset(out.1.value) && y in out.1.value
            ==> x.similarity <= y.similarity)
  {
    var s' := BeginSearch(s, hash);
    if extracted.None? then (s', Failure(ExtractionFailed))
    else
      match CatalogFailure(catalog, extracted.value, s'.weights)
      case Some(e) => (s', Failure(ScoringFailed(e)))
      case None =>
        TopResultsFromCatalog(catalog, extracted.value, s'.weights, sqrt);
        TopResultsAreBest(ScoreAll(catalog, extracted.value, s'.weights, sqrt));
        (s', Success(TopResults(ScoreAll(catalog, extracted.value, s'.weights, sqrt))))
  }

  /**
   * The stored weights are the update computed from the catalogued descriptor
   * sets of the stored judged ids, as `relevanceFeedback` leaves them.
   */
  ghost predicate WeightsCurrent(s: Session, catalog: seq<Image>) {
    s.weights == UpdateBayesianWeights(FeaturesForIds(catalog, s.relevantIds), FeaturesForIds(catalog, s.irrelevantIds))
  }

  /**
   * `relevanceFeedback`: merge the submitted ids into the stored lists, look up
   * the descriptor sets of all judged images and replace the weights with the
   * update computed from them. The query hash is not touched.
   */
  function Feedback(s: Session, relevant: seq<nat>, irrelevant: seq<nat>, catalog: seq<Image>): (r: Session)
    ensures r.hash == s.hash
    ensures NoDup(r.relevantIds) && NoDup(r.irrelevantIds)
    ensures Elements(r.relevantIds) == Elements(s.relevantIds) + Elements(relevant)
    ensures Elements(r.irrelevantIds) == Elements(s.irrelevantIds) + Elements(irrelevant)
    ensures WeightsCurrent(r, catalog)
  {
    var rel := MergeIds(s.relevantIds, relevant);
    var irr := MergeIds(s.irrelevantIds, irrelevant);
    MergeIsUnion(s.relevantIds, relevant);
    MergeIsUnion(s.irrelevantIds, irrelevant);
    Session(s.hash, UpdateBayesianWeights(FeaturesForIds(catalog, rel), FeaturesForIds(catalog, irr)), rel, irr)
  }

  /** Searching twice with the same image resets at most once. */
  lemma BeginSearchIdempotent(s: Session, hash: string)
    ensures BeginSearch(BeginSearch(s, hash), hash) == BeginSearch(s, hash)
  {
  }

  /** Submitting the same judgement twice leaves the session as after the first submission. */
  lemma FeedbackIdempotent(s: Session, relevant: seq<nat>, irrelevant: seq<nat>, catalog: seq<Image>)
    ensures Feedback(Feedback(s, relevant, irrelevant, catalog), relevant, irrelevant, catalog)
      == Feedback(s, relevant, irrelevant, catalog)
  {
    MergeIdempotent(s.relevantIds, relevant);
    MergeIdempotent(s.irrelevantIds, irrelevant);
  }

  /**
   * Two feedback rounds leave the session exactly as one round submitting both
   * judgements at once: the weights are always recomputed from all judged ids.
   */
  lemma FeedbackRounds(s: Session, rel1: seq<nat>, irr1: seq<nat>, rel2: seq<nat>, irr2: seq<nat>, catalog: seq<Image>)
    ensures Feedback(Feedback(s, rel1, irr1, catalog), rel2, irr2, catalog)
      == Feedback(s, rel1 + rel2, irr1 + irr2, catalog)
  {
    MergeRounds(s.relevantIds, rel1, rel2);
    MergeRounds(s.irrelevantIds, irr1, irr2);
  }

  /** The feedback replaces the weights: what they were before has no influence. */
  lemma FeedbackReplacesWeights(s: Session, w: Weights, relevant: seq<nat>, irrelevant: seq<nat>, catalog: seq<Image>)
    ensures Feedback(s.(weights := w), relevant, irrelevant, catalog) == Feedback(s, relevant, irrelevant, catalog)
  {
  }

  /** When none of the judged relevant ids is catalogued the weights go back to unweighted. */
  lemma FeedbackWithoutRelevantImages(s: Session, relevant: seq<nat>, irrelevant: seq<nat>, catalog: seq<Image>)
    requires forall x :: x in catalog ==> x.id !in s.relevantIds && x.id !in relevant
    ensures Feedback(s, relevant, irrelevant, catalog).weights == NoWeights
  {
    var rel := MergeIds(s.relevantIds, relevant);
    MergeIsUnion(s.relevantIds, relevant);
    assert forall x :: x in catalog ==> x.id !in rel;
    LookupNone(catalog, rel);
    NoRelevantNoWeights(FeaturesForIds(catalog, rel), FeaturesForIds(catalog, MergeIds(s.irrelevantIds, irrelevant)));
  }

  /**
   * A search with a new image scores without weights and forgets every judged
   * id, whatever the feedback before it.
   */
  lemma NewQueryDiscardsFeedback(s: Session, hash: string, q: Features, catalog: seq<Image>, sqrt: real -> real)
    requires IsSqrt(sqrt)
    requires s.hash != Some(hash)
    ensures Search(s, hash, Some(q), catalog, sqrt).0 == Session(Some(hash), NoWeights, [], [])
    ensures AllScorable(catalog, q, NoWeights) ==>
      Search(s, hash, Some(q), catalog, sqrt).1 == Success(TopResults(ScoreAll(catalog, q, NoWeights, sqrt)))
  {
  }

  /**
   * A search with the same image after feedback scores with the weights that
   * feedback computed, and keeps the judged ids.
   */
  lemma SameQueryUsesFeedback(s: Session, hash: string, relevant: seq<nat>, irrelevant: seq<nat>,
                              q: Features, catalog: seq<Image>, sqrt: real -> real)
    requires IsSqrt(sqrt)
    ensures var s1 := Feedback(BeginSearch(s, hash), relevant, irrelevant, catalog);
      var out := Search(s1, hash, Some(q), catalog, sqrt);
      out.0 == s1
      && (AllScorable(catalog, q, s1.weights) ==> out.1 == Success(TopResults(ScoreAll(catalog, q, s1.weights, sqrt))))
  {
  }

  /** A session whose hash has expired resets on the next search even with the same image. */
  lemma ExpiredHashResets(s: Session, hash: string)
    ensures BeginSearch(Expire(s, QueryHashKey), hash) == Session(Some(hash), NoWeights, [], [])
  {
  }

  /**
   * Starting a search keeps the weights matching the judged ids: a reset
   * empties both lists and the update of nothing is the empty configuration,
   * and the same image changes nothing.
   */
  lemma BeginSearchKeepsWeightsCurrent(s: Session, hash: string, catalog: seq<Image>)
    requires s.hash == Some(hash) ==> WeightsCurrent(s, catalog)
    ensures WeightsCurrent(BeginSearch(s, hash), catalog)
  {
    if s.hash != Some(hash) {
      LookupNone(catalog, []);
    }
  }

  /** Every descriptor value stored in the catalogue is non-negative. */
  ghost predicate NonNegativeCatalog(catalog: seq<Image>) {
    forall x :: x in catalog && x.features.Some? ==> NonNegativeFeatures(x.features.value)
  }

  /** The descriptor sets found for any ids carry only non-negative values when the catalogue does. */
  lemma FoundNonNegative(catalog: seq<Image>, ids: seq<nat>)
    requires NonNegativeCatalog(catalog)
    ensures NonNegativeData(FeaturesForIds(catalog, ids))
  {
    var fs := FeaturesForIds(catalog, ids);
    forall i | 0 <= i < |fs| && fs[i].Some?
      ensures NonNegativeFeatures(fs[i].value)
    {
      assert fs[i] in fs;
    }
  }

  /** After a feedback round on a catalogue of non-negative descriptors every weight lies in [0, 1]. */
  lemma FeedbackWeightsInUnit(s: Session, relevant: seq<nat>, irrelevant: seq<nat>, catalog: seq<Image>)
    requires NonNegativeCatalog(catalog)
    ensures UnitWeights(Feedback(s, relevant, irrelevant, catalog).weights)
  {
    var r := Feedback(s, relevant, irrelevant, catalog);
    FoundNonNegative(catalog, r.relevantIds);
    FoundNonNegative(catalog, r.irrelevantIds);
    UpdateInUnitInterval(FeaturesForIds(catalog, r.relevantIds), FeaturesForIds(catalog, r.irrelevantIds));
  }
}

=== FILE: vectors.dfy ===
/**
 * Descriptor vectors as sequences of reals, and the sums the comparators are
 * built from. PHP's `array_map` over two arrays of unequal length pads the
 * shorter one with null, which arithmetic reads as 0; `Dot` and `SqDist`
 * therefore run over both vectors padded with zeros to the longer length.
 */
module Vectors {
  import opened RealMath

  /** Component i, or 0 past the end (PHP's null in arithmetic). */
  function At(a: seq<real>, i: nat): real {
    if i < |a| then a[i] else 0.0
  }

  function Head0(a: seq<real>): real {
    if |a| == 0 then 0.0 else a[0]
  }

  function Tail0(a: seq<real>): seq<real> {
    if |a| == 0 then [] else a[1..]
  }

  /** Sum of the pairwise products of the zero-padded vectors. */
  function Dot(a: seq<real>, b: seq<real>): real
    decreases |a| + |b|
  {
    if |a| == 0 && |b| == 0 then 0.0
    else Head0(a) * Head0(b) + Dot(Tail0(a), Tail0(b))
  }

  /** Squared Euclidean distance of the zero-padded vectors. */
  function SqDist(a: seq<real>, b: seq<real>): (r: real)
    ensures 0.0 <= r
    decreases |a| + |b|
  {
    SquarePositive(Head0(a) - Head0(b));
    if |a| == 0 && |b| == 0 then 0.0
    else Square(Head0(a) - Head0(b)) + SqDist(Tail0(a), Tail0(b))
  }

  /** The two vectors agree component-wise once padded with zeros. */
  ghost predicate ZeroPadEqual(a: seq<real>, b: seq<real>) {
    forall i: nat :: i < |a| + |b| ==> At(a, i) == At(b, i)
  }

  /** Every component is zero. */
  ghost predicate IsZero(a: seq<real>) {
    forall i :: 0 <= i < |a| ==> a[i] == 0.0
  }

  lemma DotUnfold(a: seq<real>, b: seq<real>)
    ensures Dot(a, b) == Head0(a) * Head0(b) + Dot(Tail0(a), Tail0(b))
  {
  }

  lemma AtTail(a: seq<real>, i: nat)
    ensures At(Tail0(a), i) == At(a, i + 1)
    ensures At(a, 0) == Head0(a)
  {
  }

  /** Padded equality splits into the first components and the rest. */
  lemma ZeroPadEqualUnfold(a: seq<real>, b: seq<real>)
    requires |a| + |b| > 0
    ensures ZeroPadEqual(a, b) <==> Head0(a) == Head0(b) && ZeroPadEqual(Tail0(a), Tail0(b))
  {
    var a', b' := Tail0(a), Tail0(b);
    if ZeroPadEqual(a, b) {
      assert At(a, 0) == At(b, 0);
      forall i: nat | i < |a'| + |b'|
        ensures At(a', i) == At(b', i)
      {
        AtTail(a, i);
        AtTail(b, i);
      }
    }
    if Head0(a) == Head0(b) && ZeroPadEqual(a', b') {
      forall i: nat | i < |a| + |b|
        ensures At(a, i) == At(b, i)
      {
        if i > 0 {
          AtTail(a, i - 1);
          AtTail(b, i - 1);
          if i - 1 >= |a'| + |b'| {
            assert At(a, i) == 0.0 == At(b, i);
          }
        }
      }
    }
  }

  /** The squared distance vanishes exactly when the padded vectors coincide. */
  lemma {:induction false} SqDistZeroIff(a: seq<real>, b: seq<real>)
    ensures SqDist(a, b) == 0.0 <==> ZeroPadEqual(a, b)
    decreases |a| + |b|
  {
    if |a| + |b| > 0 {
      SqDistZeroIff(Tail0(a), Tail0(b));
      ZeroPadEqualUnfold(a, b);
      SquarePositive(Head0(a) - Head0(b));
    }
  }

  /** A vector's squared norm is non-negative and zero exactly for the zero vector. */
  lemma {:induction false} NormSquared(a: seq<real>)
    ensures 0.0 <= Dot(a, a)
    ensures Dot(a, a) == 0.0 <==> IsZero(a)
    decreases |a|
  {
    if |a| > 0 {
      NormSquared(a[1..]);
      var x := a[0];
      assert Dot(a, a) == Square(x) + Dot(a[1..], a[1..]);
      SquarePositive(x);
      if IsZero(a) {
        assert IsZero(a[1..]);
      }
      if x == 0.0 && IsZero(a[1..]) {
        forall i | 0 <= i < |a|
          ensures a[i] == 0.0
        {
          if i > 0 { assert a[i] == a[1..][i - 1]; }
        }
      }
    }
  }

  /** The quadratic form A y^2 - 2 D x y + B x^2 is non-negative when A, B >= 0 and D^2 <= A B. */
  lemma QuadraticFormNonNegative(A: real, B: real, D: real, x: real, y: real)
    requires 0.0 <= A && 0.0 <= B && D * D <= A * B
    ensures 2.0 * D * x * y <= A * y * y + B * x * x
  {
    var e := A * y * y - 2.0 * D * x * y + B * x * x;
    if A == 0.0 {
      assert D * D <= 0.0;
      MulZero(D, D);
      assert B * (x * x) >= 0.0;
    } else {
      var u := A * y - D * x;
      assert A * e == u * u + (A * B - D * D) * (x * x);
      assert u * u >= 0.0;
      assert (A * B - D * D) * (x * x) >= 0.0;
      if e < 0.0 {
        MulPositive(A, -e);
      }
    }
  }

  /** One inductive step of Cauchy-Schwarz: extending both vectors by one component keeps the bound. */
  lemma CauchySchwarzStep(A: real, B: real, D: real, x: real, y: real)
    requires 0.0 <= A && 0.0 <= B && D * D <= A * B
    ensures (D + x * y) * (D + x * y) <= (A + x * x) * (B + y * y)
  {
    QuadraticFormNonNegative(A, B, D, x, y);
    assert (D + x * y) * (D + x * y) == D * D + 2.0 * D * x * y + (x * x) * (y * y);
    assert (A + x * x) * (B + y * y) == A * B + A * y * y + B * x * x + (x * x) * (y * y);
  }

  /** Cauchy-Schwarz: the squared dot product is at most the product of the squared norms. */
  lemma {:induction false} CauchySchwarz(a: seq<real>, b: seq<real>)
    ensures Dot(a, b) * Dot(a, b) <= Dot(a, a) * Dot(b, b)
    decreases |a| + |b|
  {
    if |a| + |b| > 0 {
      var a', b' := Tail0(a), Tail0(b);
      var x, y := Head0(a), Head0(b);
      CauchySchwarz(a', b');
      NormSquared(a');
      NormSquared(b');
      DotUnfold(a, b);
      DotUnfold(a, a);
      DotUnfold(b, b);
      CauchySchwarzStep(Dot(a', a'), Dot(b', b'), Dot(a', b'), x, y);
    }
  }

  /** The dot product with a zero vector is zero. */
  lemma {:induction false} DotWithZero(a: seq<real>, b: seq<real>)
    ensures IsZero(a) || IsZero(b) ==> Dot(a, b) == 0.0
    decreases |a| + |b|
  {
    if |a| + |b| > 0 && (IsZero(a) || IsZero(b)) {
      var a', b' := Tail0(a), Tail0(b);
      assert IsZero(a) ==> IsZero(a') && Head0(a) == 0.0;
      assert IsZero(b) ==> IsZero(b') && Head0(b) == 0.0;
      DotWithZero(a', b');
    }
  }
}

=== FILE: wrappers.dfy ===
/** Failure-carrying datatypes shared by the model. */
module Wrappers {

  /** A value that may be missing: a descriptor kind not set, a key not in the cache. */
  datatype Option<+T> = None | Some(value: T)

  /** The outcome of an operation that can fail with an error of type E. */
  datatype Result<+T, +E> = Success(value: T) | Failure(error: E)
}
